=== FILE: README.md ===
# trmnl-vbn-departures-api, modelled in Dafny

This repository is a Cloudflare worker that serves public-transport departures (VBN, through a
HAFAS client) to TRMNL e-ink displays. It renders them with a Liquid engine that is extended by a
small macro layer. This project models the decision-making core of that worker as pure Dafny
functions and proves the properties the code promises about it:

- **The macro layer** (`TrmnlLiquid`):
  - The definition tag `{% template NAME %}…{% endtemplate %}`. Its parse takes the templates up
    to the sentinel tag, or fails with `not closed`. Its render stores the body in the engine's
    registry (last write wins) and emits nothing.
  - The invocation tag `{% render "NAME", k: expr, … %}`. Its parse checks the argument grammar.
    Its render looks the target up, binds the clauses in one pushed scope, renders the body,
    pops the scope and emits the text.
  - The total `parse_json` filter.

  Tokens, nodes, the registry (`map<string, seq<Node>>`) and the scope stack (`seq<map<string,
  Value>>`) are immutable values. Rendering is a pure interpreter that returns
  `Result<Rendered, RenderError>`. Expression evaluation, output stringification and the
  engine's own tags belong to the host, so they are function parameters (`LiquidRender.Host`).
- **The preview controller**:
  - The Basic-credential guard.
  - The order of the `renderPreview` checks.
  - `resolvePartials`: one global replace of `{% include "NAME" %}` directives from the
    partials table, in a single pass.
- **The stand-alone worker entry point** (`src/index.ts`):
  - The bearer check.
  - Routing to `/locations` and `/departures/<digits>`.
  - The query check of the locations search.
  - Defaulting and capping of `duration` (30) and `results` (7).
  - Handler failures turned into 500 JSON errors.
- **The API controller**: the same checks, with defaults and no cap, and a client failure
  answered with a 500.

The modules, in dependency order:

| module | file | what it holds |
|---|---|---|
| `Results` | results.dfy | `Option` and `Result` |
| `JsText` | js_text.dfy | ECMAScript `\s`, `trim`, `trimStart`, `split` on one character, `startsWith` |
| `JsNumbers` | js_numbers.dfy | `parseInt` without a radix, and the `parseInt(p \|\| '') \|\| d` idiom |
| `Json` | json.dfy | values, scopes, innermost-first lookup |
| `LiquidSyntax` | liquid_syntax.dfy | tokens, nodes, the `render` argument grammar, clause splitting, the parse of a token stream |
| `LiquidRender` | liquid_render.dfy | the interpreter, the registry, the scope push/pop, `parse_json` |
| `LiquidExamples` | liquid_examples.dfy | whole documents: last definition wins, an unclosed definition fails |
| `Http` | http.dfy | requests, responses, thrown values, the timetable client's calls, the query of a URL |
| `Worker` | worker.dfy | `src/index.ts` |
| `ApiController` | api_controller.dfy | `src/ApiController.ts` |
| `PreviewPartials` | preview_partials.dfy | the include pattern and `resolvePartials` |
| `PreviewController` | preview_controller.dfy | `auth` and `renderPreview` |

Two behaviours of the code are easy to misread:

- **Nested definitions.** A definition's body is parsed with the engine's own stream parser. A
  nested `template` tag inside a body therefore consumes its own `endtemplate`, recursively.
  The outer body does not end at the first `endtemplate` token (`LiquidSyntax.ParseNode` and
  `LiquidSyntax.ParseBody` are mutually recursive).
- **Splitting a clause.** A clause is split on every `:`. The key is the first part and the
  expression is the second. Text after a second colon is dropped (`LiquidSyntax.ClauseExpr`).

## Model

| member | source | states |
|---|---|---|
| JsText.Trim | src/TrmnlLiquid.ts:18 | the trimmed arguments start and end with a non-space character (or are empty) |
| JsText.TrimShape | src/TrmnlLiquid.ts:39 | `trim` removes exactly an all-space prefix and an all-space suffix, and keeps the text between them |
| JsText.TrimOfTrimmed | src/TrmnlLiquid.ts:59 | trimming a text without outer white space leaves it unchanged |
| JsText.Split | src/TrmnlLiquid.ts:59 | `split(',')` gives at least one part, no part contains the separator, and joining the parts with it gives the text back |
| JsText.SplitJoin | src/TrmnlLiquid.ts:59 | splitting the join of separator-free parts gives exactly those parts |
| JsText.SplitSecond | src/TrmnlLiquid.ts:61 | there is a second part exactly when the text has a separator, and it is the text between the first and the second separator |
| JsNumbers.DigitRun | src/index.ts:55 | `parseInt` reads the longest prefix of digits: every character read is a digit, and the next one is not |
| JsNumbers.ParseIntDecimal | src/index.ts:55 | `parseInt` of the decimal text of a natural number gives that number |
| JsNumbers.ParseIntNegative | src/index.ts:55 | `parseInt` of `-` and a decimal text gives the negative number |
| JsNumbers.ParseInt | src/ApiController.ts:46-47 | text that is empty or only white space has no number, and a negative result comes only from a leading `-` |
| JsNumbers.IntOr | src/ApiController.ts:46-47 | the parameter's number is used when it has one other than 0; absent, empty, non-numeric or zero text falls back to the default |
| Json.Lookup | src/TrmnlLiquid.ts:64 | a variable is found exactly when some scope binds it, and then its value comes from the innermost scope that binds it |
| Json.PushShadows | src/TrmnlLiquid.ts:64 | a pushed scope shadows the outer ones for its own keys and lets every other lookup fall through unchanged |
| LiquidSyntax.ParseNode | src/TrmnlLiquid.ts:16-30 | every node parse consumes at least one token and hands back a suffix of the stream |
| LiquidSyntax.ParseBody | src/TrmnlLiquid.ts:21-29 | a definition's scan stops just after an `endtemplate` token and returns the tokens after it; an exhausted stream is `not closed` for the opening tag |
| LiquidSyntax.NoSentinelFails | src/TrmnlLiquid.ts:25-27 | a stream without any `endtemplate` never yields a definition body; when its tokens hold no definition and parse, the error is `not closed` for the definition's own tag |
| LiquidSyntax.ParseAll | src/TrmnlLiquid.ts:21-24 | a parsed document has at most one node per token, and a non-empty one at least one node |
| LiquidSyntax.FlatParse | src/TrmnlLiquid.ts:21-24 | a document without definitions parses exactly when each of its tokens does, and then to one node per token, in order |
| LiquidSyntax.FlatBody | src/TrmnlLiquid.ts:21-24 | without nested definitions, the body is the parse of exactly the tokens before the first `endtemplate`, and the tokens after it go back to the enclosing parser |
| LiquidSyntax.DefinitionParse | src/TrmnlLiquid.ts:17-19 | a definition in a document parses to one node named by the trimmed tag arguments, followed by the parse of the rest of the document |
| LiquidSyntax.MatchArgs | src/TrmnlLiquid.ts:40 | on trimmed text (the only text it is given), accepted arguments spell the grammar: a quote, a non-empty quote-free name, a quote, then nothing, or a comma, white space and parameters without line terminators |
| LiquidSyntax.MatchArgsComplete | src/TrmnlLiquid.ts:40 | conversely, trimmed text spelling the grammar is accepted, and yields exactly the name and the parameters it spells |
| LiquidSyntax.RenderArgsComplete | src/TrmnlLiquid.ts:39-47 | tag arguments whose trimmed text spells the grammar give that target name, and the parameter text or the empty string |
| LiquidSyntax.ParseRenderArgs | src/TrmnlLiquid.ts:39-47 | whatever target the tag's arguments yield is spelled by the trimmed arguments |
| LiquidSyntax.Leaf | src/TrmnlLiquid.ts:38-47 | a `render` tag parses exactly when its arguments match, to an invocation of the matched target; otherwise it fails with `Invalid render syntax` and the tag's text |
| LiquidSyntax.ParseClause | src/TrmnlLiquid.ts:61 | a clause's key is the trimmed text before its first colon, and it has no expression exactly when it has no colon |
| LiquidSyntax.ClauseExpr | src/TrmnlLiquid.ts:61 | a clause's expression is the trimmed text between its first and its second colon |
| LiquidSyntax.Clauses | src/TrmnlLiquid.ts:59-61 | one clause per comma-separated part, and no key holds a comma or a colon |
| LiquidSyntax.ClauseRoundTrip | src/TrmnlLiquid.ts:61 | `key: expr` with colon-free, comma-free, trimmed parts parses back to that key and expression |
| LiquidSyntax.ClausesRoundTrip | src/TrmnlLiquid.ts:59-61 | `k1: e1, k2: e2, …` parses back to its clauses, in order |
| LiquidRender.EvalAll | src/TrmnlLiquid.ts:60-62 | the clause values are the evaluations of their expressions against the caller's context, in order; a failure is the first clause that fails |
| LiquidRender.Bind | src/TrmnlLiquid.ts:58-63 | the scope binds exactly the clause keys, and each key gets the value of its last clause |
| LiquidRender.MakeScope | src/TrmnlLiquid.ts:57-63 | the pushed scope binds exactly the clause keys to the values of their last clauses, and building it fails exactly when some expression fails |
| LiquidRender.RenderNode | src/TrmnlLiquid.ts:31-34 | a successful render of any node leaves the scope stack as it found it and never removes a macro from the registry |
| LiquidRender.RenderInvoke | src/TrmnlLiquid.ts:49-75 | a successful invocation leaves the caller's scope stack unchanged and keeps every registered macro |
| LiquidRender.RenderNodes | src/TrmnlLiquid.ts:68 | rendering a sequence keeps the scope stack and the registered names |
| LiquidRender.RenderConcat | src/TrmnlLiquid.ts:68 | rendering `a + b` renders `a`, then `b` from the state `a` left, and writes the texts in that order; a failure in `a` is the failure of the whole |
| LiquidRender.DefinitionRegisters | src/TrmnlLiquid.ts:31-34 | a definition emits nothing, registers its body under its name, and leaves every other registry entry and the stack unchanged |
| LiquidRender.LastDefinitionWins | src/TrmnlLiquid.ts:32 | of two definitions of one name, the registry keeps the second body |
| LiquidRender.RenderOrderVisibility | src/TrmnlLiquid.ts:50-54 | an invocation of a name not yet rendered as a definition fails with `not found`, even when a definition of it comes later |
| LiquidRender.InvokeWithoutParams | src/TrmnlLiquid.ts:56-68 | without parameters no scope is pushed: the body renders against the caller's unchanged context |
| LiquidRender.InvokeWithParams | src/TrmnlLiquid.ts:56-74 | with parameters, one scope is pushed for the body and popped afterwards; the output is the body's text, and a failing clause or body is the invocation's failure |
| LiquidRender.DefineThenInvoke | src/TrmnlLiquid.ts:50-74 | a definition rendered before an invocation of its name makes the invocation emit that body's rendering |
| LiquidRender.ParseJson | src/TrmnlLiquid.ts:80-86 | `parse_json` never fails: text that does not parse gives null, and anything else gives its parsed value |
| LiquidRender.ParseJsonRoundTrip | src/TrmnlLiquid.ts:80-86 | the filter gives back any value whose printed text the parser reads back (an instance of `ParseJson`'s own contract, stated as the agreement with the parser) |
| LiquidRender.ParseAndRender | src/PreviewController.ts:79 | a document that does not parse fails with that parse error, before anything is rendered; a parsed document renders from an empty registry with the data as its only scope, and gives that output or that render failure |
| LiquidRender.Message | src/TrmnlLiquid.ts:26-53 | the macro tags' errors read `tag <tag text> not closed`, `Invalid render syntax: <tag text>` and `Template "<name>" not found` |
| LiquidExamples.InvokeTokenParses | src/TrmnlLiquid.ts:40-47 | `{% render "NAME" %}` for any non-empty name without quotes, spaces inside the quotes included, parses to an invocation of NAME without parameters |
| LiquidExamples.TwoDefinitionsParse | src/TrmnlLiquid.ts:16-30 | two consecutive definitions and an invocation parse to two definition nodes and the invocation |
| LiquidExamples.TwoDefinitionsRender | src/TrmnlLiquid.ts:31-74 | rendering those nodes emits the second definition's body only |
| LiquidExamples.LastWriteWinsDocument | src/TrmnlLiquid.ts:32 | a document defining a name twice and then invoking it renders to the second body |
| LiquidExamples.UnclosedDefinitionFails | src/TrmnlLiquid.ts:25-27 | a document whose definition is never closed fails to parse; with a plain body that parses, the error is `tag {% template NAME %} not closed` |
| PreviewPartials.MatchInclude | src/PreviewController.ts:9 | a match is a well-formed directive the text starts with, and nothing matches where the text does not start with `{` |
| PreviewPartials.MatchIncludeComplete | src/PreviewController.ts:9 | every well-formed directive at the start of a text is matched, with all its parts |
| PreviewPartials.Replacement | src/PreviewController.ts:104 | a partial with text replaces the match; an absent or empty one keeps the match |
| PreviewPartials.ReplaceAll | src/PreviewController.ts:102-105 | a replacer that always puts the matched text back leaves the text unchanged |
| PreviewPartials.Resolve | src/PreviewController.ts:102-105 | with a table that resolves no name to text, resolution leaves the template unchanged |
| PreviewPartials.ReplacePlainPrefix | src/PreviewController.ts:102-105 | the global replace copies text without `{` unchanged, whatever follows it |
| PreviewPartials.ReplaceNothing | src/PreviewController.ts:102-105 | where the pattern matches at no position, the replace is the identity |
| PreviewPartials.ResolveDirective | src/PreviewController.ts:102-105 | a directive followed by more text gives its replacement, then the resolution of the rest |
| PreviewPartials.ResolveNotRescanned | src/PreviewController.ts:102-105 | a partial's text is inserted as it is, even when it holds a directive itself |
| PreviewPartials.ResolveUnknownVerbatim | src/PreviewController.ts:104 | a directive whose name the table does not resolve stays as written |
| PreviewPartials.ResolvePlainPrefix | src/PreviewController.ts:101-105 | text without `{` passes through resolution unchanged |
| PreviewPartials.ResolveIdentity | src/PreviewController.ts:101-105 | a template with no directive at any position resolves to itself |
| PreviewPartials.ResolveWithoutBrace | src/PreviewController.ts:101-105 | a template without `{` resolves to itself |
| PreviewPartials.ResolveSingle | src/PreviewController.ts:102-105 | a template that is one directive resolves to that directive's replacement |
| PreviewPartials.OwnPartial | src/PreviewController.ts:10-13 | the partials table has exactly `partials/full` and `partials/shared`, each with its view |
| PreviewPartials.ResolvePartials | src/PreviewController.ts:101-105 | a template without `{` is unchanged, and so is every template while both partials are empty |
| PreviewPartials.ResolveKnownPartial | src/PreviewController.ts:104 | an include of either own key of `PARTIALS`, `partials/full` or `partials/shared`, whose partial is not empty is replaced by that partial's text, and the rest is resolved after it |
| PreviewPartials.ResolveOtherVerbatim | src/PreviewController.ts:104 | an include of any other name stays as written |
| PreviewPartials.InheritedPartial | src/PreviewController.ts:104 | as written, the lookup also answers for every member an object literal inherits |
| PreviewPartials.ResolvePartialsAsWritten | src/PreviewController.ts:101-105 | as written, a template without `{` is still unchanged |
| PreviewPartials.InheritedIncludeReplaced | src/PreviewController.ts:104 | as written, `{% include "toString" %}` is replaced by the text of a built-in function |
| PreviewPartials.OwnLookupKeepsInclude | src/PreviewController.ts:104 | with the own-key lookup, `{% include "toString" %}` stays as written |
| PreviewController.Encoded | src/PreviewController.ts:37 | the encoded credential is the header after its first six characters |
| PreviewController.UserAndPassword | src/PreviewController.ts:39 | the user name is the text before the first `:`; there is no password exactly when there is no `:`; otherwise the password runs up to the second `:` |
| PreviewController.Auth | src/PreviewController.ts:26-44 | a missing, empty or non-`Basic` header gets the Basic challenge; an undecodable credential throws; any other refusal is a plain 401; an unset key lets nothing through |
| PreviewController.AuthPassShape | src/PreviewController.ts:39-43 | credentials that pass have the shape `key:key` or `key:key:…` |
| PreviewController.AuthAdmitsShape | src/PreviewController.ts:39-43 | credentials of either shape pass, so text after a second `:` is ignored |
| PreviewController.AuthPassIff | src/PreviewController.ts:37-43 | for a decodable `Basic` header, the guard lets the request through exactly when the credentials are `key:key` or `key:key:…` |
| PreviewController.OwnLayout | src/PreviewController.ts:14-17 | the layouts table has exactly `html` and `trmnl`, each with its view |
| PreviewController.PreviewData | src/PreviewController.ts:79-93 | the render context holds exactly three names: the departures and their timestamp from the API's answer, and the fixed TRMNL settings with the clock's UTC offset |
| PreviewController.RenderText | src/PreviewController.ts:76-98 | a layout that tokenizes and renders is a 200 page of the output; any engine failure is a 500 carrying the engine's message |
| PreviewController.AfterLayout | src/PreviewController.ts:58-62 | a missing or empty `stopId` is a 400, before any departures are fetched |
| PreviewController.RenderPreview | src/PreviewController.ts:46-62 | the checks come in order: no template name is a 400, a name that is not a layout a 404, no `stopId` a 400 |
| PreviewController.DeparturesRequest | src/PreviewController.ts:64-67 | the sub-request has no headers and the raw `stopId` as its path parameter; a `stopId` without `?` gives it no query, and one without `?` and `#` lands whole in its path |
| PreviewController.PreviewCallAsked | src/ApiController.ts:37-48 | the API controller answers the sub-request by asking the client with the `duration` and `results` of the sub-request's URL, defaulted to 30 and 7 |
| PreviewController.PreviewFetches | src/PreviewController.ts:64-79 | a preview that passes its checks asks for the stop with the numbers of the sub-request's URL; a client failure is the API's 500, and otherwise the layout with its includes resolved is rendered |
| PreviewController.PreviewFetchesDefaults | src/PreviewController.ts:64 | a `stopId` without `?` asks for 30 minutes and 7 results |
| PreviewController.StopQuery | src/PreviewController.ts:64 | the sub-request for `<id>?duration=<n>` has the one query parameter `duration` |
| PreviewController.PreviewStopQuery | src/PreviewController.ts:64-67 | a `stopId` of the form `<id>?duration=<n>` asks for `n` minutes and 7 results, with no cap |
| PreviewController.PreviewClientFailure | src/PreviewController.ts:68-72 | a client that cannot be created gives the API's 500 on the preview too |
| PreviewController.InheritedLayout | src/PreviewController.ts:52-56 | as written, the layout check also accepts inherited member names, which are not layout texts |
| PreviewController.RenderPreviewAsWritten | src/PreviewController.ts:47-50 | as written, a missing template name is still a 400 |
| PreviewController.InheritedEntryFails | src/PreviewController.ts:52-79 | as written, `toString` fetches departures and then fails with the `TypeError` of calling `replace` |
| PreviewController.ToStringNotFound | src/PreviewController.ts:52-54 | with the own-key lookup, `toString` is a 404 |
| PreviewController.InheritedLayoutAccepted | src/PreviewController.ts:52 | as written, the template name `toString` passes the layout check and ends in a 500 after fetching departures, where the corrected check gives a 404 |
| Http.Describe | src/index.ts:22 | a thrown `Error` contributes its message; anything else contributes `Unknown error` |
| Http.NameValue | src/ApiController.ts:46-47 | a query piece splits at its first `=` into a name without `=` and the value; a piece without `=` has an empty value |
| Http.FirstValues | src/ApiController.ts:46-47 | the names are those of the non-empty pieces, and each name has the value of the first piece with that name |
| Http.SearchParams | src/ApiController.ts:46-47 | a query without `&` is one piece: its name and value |
| Http.UrlQuery | src/PreviewController.ts:64 | a URL text without `?` has no query |
| Http.UrlPath | src/PreviewController.ts:64 | the path holds no `?` or `#`, and a text with neither is the whole path |
| Http.UrlQueryAfter | src/PreviewController.ts:64 | the query is the text after the first `?` when no `#` follows |
| Http.NameOfPiece | src/ApiController.ts:46-47 | `name=value` with a name without `=` splits back into that name and value |
| Http.SingleParamQuery | src/PreviewController.ts:64 | a URL text `<path>?name=value` has exactly that one query parameter |
| Worker.ErrorResponse | src/index.ts:96-98 | an error response is JSON with the given status and an `error` field holding the message |
| Worker.BearerText | src/index.ts:5 | the accepted header is `Bearer ` followed by the key |
| Worker.StopIdOf | src/index.ts:46 | a recognised stop id is the non-empty run of digits that makes up the rest of the path after `/departures/` |
| Worker.StopIdOfComplete | src/index.ts:1 | every path of the form `/departures/<digits>` is recognised, with those digits as the stop id |
| Worker.RouteOf | src/index.ts:11-18 | only `/locations` routes to the locations search, and a departures route carries digits that make up the rest of the path |
| Worker.RouteClassification | src/index.ts:10-18 | `/locations`, and nothing else, goes to the locations search; exactly the paths `/departures/<digits>` go to the departures board with their digits; every other path is not found |
| Worker.LocationsStep | src/index.ts:27-36 | a missing or empty `query` is a 400; otherwise the client is asked for 5 matches of the query |
| Worker.Capped | src/index.ts:54-60 | the value never exceeds the cap; absent, non-numeric or zero text gives the cap; a number below the cap is kept |
| Worker.CappedDecimal | src/index.ts:54-60 | a positive decimal up to the cap is used as it is, and a larger one is cut to the cap |
| Worker.CappedNegative | src/index.ts:54-60 | there is no lower bound: a negative number passes the cap unchanged |
| Worker.DeparturesStep | src/index.ts:44-62 | a path without a stop id is a 400; otherwise the client is asked for that stop, with a duration of at most 30 and at most 7 results |
| Worker.Execute | src/index.ts:34-41 | the client's answer is a 200 JSON response; a failure to create the client, or of the call, is rethrown as an `Error` whose message is the handler's prefix and the failure's message |
| Worker.Fetch | src/index.ts:4-24 | a wrong bearer header is a 401 before routing, and every response has status 200, 400, 401, 404 or 500 |
| Worker.UnauthorizedExactly | src/index.ts:5-7 | a response is a 401 exactly when the `Authorization` header is not `Bearer ` followed by the key |
| Worker.UnsetKeyAcceptsUndefined | src/index.ts:5 | with no key configured, the header `Bearer undefined` passes the check |
| Worker.UnknownPathNotFound | src/index.ts:16-17 | an authorised request for any other path is a 404 |
| Worker.LocationsOutcome | src/index.ts:27-42 | the locations search gives a 400 for a missing query, the client's answer for 5 matches, or a 500 naming locations |
| Worker.DeparturesOutcome | src/index.ts:44-68 | a departures path never gives the missing-stop 400; the client is asked with capped parameters, and its failure is a 500 naming departures |
| Worker.ClientFailure | src/index.ts:19-23 | a client that cannot be created turns every request reaching it into a 500 naming the handler |
| ApiController.Auth | src/ApiController.ts:14-18 | the request passes exactly when the header is `Bearer ` followed by the key; otherwise it is a 401 |
| ApiController.AuthAdmits | src/ApiController.ts:15-17 | with a key configured, exactly `Bearer KEY` passes, and a missing header never does |
| ApiController.LocationsStep | src/ApiController.ts:20-29 | a missing or empty `query` is a 400; otherwise the client is asked for 5 matches |
| ApiController.DeparturesStep | src/ApiController.ts:37-48 | a missing or empty `stopId` path parameter is a 400; otherwise the client is asked for that stop with the defaulted duration and results |
| ApiController.Execute | src/ApiController.ts:27-34 | the client's answer is a 200 JSON response; a failure to create the client, or of the call, is a 500 whose message is the handler's prefix and the failure's message |
| ApiController.GetLocations | src/ApiController.ts:20-35 | the response is a 200, 400 or 500, and it is ok exactly when it is a 200 |
| ApiController.GetDepartures | src/ApiController.ts:37-54 | the response is a 200, 400 or 500; it is a 400 exactly when the stop id is missing |
| ApiController.DeparturesDefaults | src/ApiController.ts:46-47 | an absent `duration` is 30 and an absent `results` is 7 |
| ApiController.DeparturesUncapped | src/ApiController.ts:46-47 | any positive decimal is passed on as it is, however large: there is no cap |
| ApiController.ClientFailure | src/ApiController.ts:51-53 | a client that cannot be created gives a 500 naming the handler |

## Left out

- The Liquid tokenizer, the host engine's own tags, its expression evaluator and output
  stringification are not modelled. They are parameters: a token sequence, a set of host tag
  names, and `LiquidRender.Host`. Errors the host engine raises for an unknown tag are one
  `UnknownTag` error.
- Liquid's generator-based suspension (`yield`) is modelled as plain sequential evaluation, as
  is `async`/`await` everywhere.
- LiquidRender.RenderInvoke: the code sets no bound on macro recursion. Because the engine
  awaits each nested tag, a self-invoking macro does not overflow the call stack; it never
  finishes. The model bounds nesting with a `fuel` parameter. `TooDeep`, and the text
  `LiquidRender.Message` gives it, are the model's own cut-off, not something the program
  reports.
- `JSON.parse` (RFC 8259) is a parameter of `LiquidRender.ParseJson`. Only the filter's
  totality and its agreement with the parser are stated.
- Numbers are integers. Floating point, `NaN` other than "no number", `-0` and `parseInt`
  precision loss for very long digit runs are not modelled.
- Strings are sequences of Unicode scalar values. A character outside the Basic Multilingual
  Plane is one character here where JavaScript counts two code units, and lone surrogates
  cannot occur. No modelled operation depends on the difference: the one length-based cut,
  `authHeader.slice(6)`, applies to a header value limited to Latin-1, and the regular
  expressions, `split` and `trim` match the same way either way. There is no Unicode
  normalisation.
- An incoming request is its `Authorization` header, path name, query parameters (first value
  of each) and router path parameters; how the host parses its URL is not modelled.
- Http.UrlQuery: the preview's sub-request URL `/api/v6/departures/<stopId>` is cut at the
  first `?` and `#` and its query split at `&` and `=`, as the WHATWG URL Standard does. The
  percent-decoding and `+`-to-space of `application/x-www-form-urlencoded` are not modelled, so
  a value holding `%` or `+` is taken literally. The stripping of tabs, newlines and outer
  control characters is not modelled either.
- Http.UrlPath: percent-encoding and dot-segment removal in the sub-request's path are not
  modelled. The API controller does not read that path.
- `src/HafasClientFactory.ts` and the lazy client singleton of `src/index.ts` (lines 70-87) are
  not part of this model. Creating the client is an input: the client, or the value its
  creation throws. The timetable client is a function from the call to its answer.
- `atob` (section 4 of RFC 4648) is a parameter of `PreviewController.Auth`. It returns `None`
  where it throws.
- `new Date().getTimezoneOffset()` is an input value (`utcOffset`), and `console.error` is
  left out.
- PreviewController.AfterLayout: destructuring a JSON body of `null` throws in the code. The
  model reads a missing or non-object body as one with null fields instead. The API controller
  never answers a 200 with a non-object body unless the client returns one.
- itty-router's `error`, `json` and `html` are modelled by the response values they build
  (status, body kind, message, Basic challenge). Header values and JSON framing are not
  modelled.
- PreviewPartials.InheritedText: the text a built-in function prints as is the one V8 prints.
  Other engines may print differently.
- PreviewController.RenderPreviewAsWritten: the message of the `TypeError` raised when an
  inherited member is used as a layout is V8's.
- The liquidjs decoration of error messages (line and column context) is not modelled.
  `LiquidRender.Message` gives the undecorated message.
- LiquidSyntax.ParseNode: a tag of the host engine is one leaf node that consumes only its own
  token. Host block tags such as `for` or `if` cannot enclose nodes here:
  `{% for d in departures %}{% render "row" %}{% endfor %}` parses to three sibling nodes. An
  `{% endtemplate %}` inside a host block closes the definition here, where the host's block
  parser would reject it.
- LiquidRender.RenderNode: since a host tag is a leaf that only returns text, no host tag can
  `assign` or `capture` into the scope stack. The promise that a render leaves the stack as it
  found it rests on that restriction.
- LiquidRender.MakeScope: a clause keyed `__proto__` is bound as an ordinary name. In the code,
  `scope['__proto__'] = value` sets the scope object's prototype when the value is an object and
  is ignored otherwise, so it creates no binding.
- Json.Lookup: variable lookup belongs to the host engine's evaluator (`LiquidRender.Host`).
  `Json.Lookup` and `Json.PushShadows` state the innermost-first lookup that a pushed scope
  relies on, but the interpreter does not call them.
- Tests and the mock client are not part of this model.

## Findings

| source | as written | input that shows it | evidently intended | confidence | as-written member | corrected member |
|---|---|---|---|---|---|---|
| src/PreviewController.ts:52 | `templateName in LAYOUTS` is also true for the members every object inherits (`toString`, `constructor`, `__proto__`, …) | `GET /preview/toString?stopId=1`: the check passes, departures are fetched, then `template.replace is not a function` gives a 500 (`PreviewController.InheritedLayoutAccepted`) | only `html` and `trmnl` are layouts, and any other name is a 404 | not executed | PreviewController.RenderPreviewAsWritten | PreviewController.RenderPreview |
| src/PreviewController.ts:104 | `PARTIALS[partialPath] \|\| match` also finds inherited members, which are truthy functions | `{% include "toString" %}` is replaced by `function toString() { [native code] }` (`PreviewPartials.InheritedIncludeReplaced`) | a name that is not a partial stays as written (`PreviewPartials.OwnLookupKeepsInclude`, `PreviewPartials.ResolveOtherVerbatim`) | not executed | PreviewPartials.ResolvePartialsAsWritten | PreviewPartials.ResolvePartials |

=== FILE: api_controller.dfy ===
/**
  The router-facing API controller: a bearer-token guard, the locations search and the
  departures board of one stop. Unlike the stand-alone worker it defaults the departures window
  and count but does not cap them, and it answers a client failure itself with a 500.
 */
module ApiController {
  import opened Results
  import opened JsNumbers
  import opened Json
  import opened Http

  const DefaultDuration := 30
  const DefaultResults := 7
  const LocationResults := 5
  const LocationsFailure := "Failed to fetch locations: "
  const DeparturesFailure := "Failed to fetch departures: "

  /**
    The `auth` guard: nothing (let the request through) when the header is exactly
    `'Bearer ' + env.API_KEY`, a 401 otherwise. An unset key concatenates as `undefined`.
   */
  function Auth(authorization: Option<string>, apiKey: Option<string>): (r: Option<Response>)
    ensures r.None? <==> authorization == Some("Bearer " + ShowOptional(apiKey))
    ensures r.Some? ==> r.value == Error(401, "Unauthorized")
  {
    if !HeaderIs(authorization, "Bearer " + ShowOptional(apiKey)) then Some(Error(401, "Unauthorized"))
    else None
  }

  /** With a key configured, exactly the header `Bearer KEY` passes, and no header at all never does. */
  lemma AuthAdmits(authorization: Option<string>, key: string)
    ensures Auth(authorization, Some(key)).None? <==> authorization == Some("Bearer " + key)
    ensures Auth(None, Some(key)) == Some(Error(401, "Unauthorized"))
  {
  }

  /** `getLocations` before the client: a missing or empty `query` is a 400, otherwise ask for 5 matches. */
  function LocationsStep(query: map<string, string>): (s: Step)
    ensures s.Respond? <==> Falsy(Param(query, "query"))
    ensures s.Respond? ==> s.response == Error(400, "Missing or invalid query")
    ensures s.Ask? ==> s.call == LocationsCall(query["query"], LocationResults)
  {
    var q := Param(query, "query");
    if Falsy(q) then Respond(Error(400, "Missing or invalid query"))
    else Ask(LocationsCall(q.value, LocationResults))
  }

  /**
    `getDepartures` before the client: a missing or empty `stopId` path parameter is a 400;
    otherwise ask for that stop with `duration` defaulted to 30 and `results` to 7.
   */
  function DeparturesStep(params: map<string, string>, query: map<string, string>): (s: Step)
    ensures s.Respond? <==> Falsy(Param(params, "stopId"))
    ensures s.Respond? ==> s.response == Error(400, "Missing or invalid stopId")
    ensures s.Ask? ==> s.call == DeparturesCall(params["stopId"],
      IntOr(Param(query, "duration"), DefaultDuration), IntOr(Param(query, "results"), DefaultResults))
  {
    var stopId := Param(params, "stopId");
    if Falsy(stopId) then Respond(Error(400, "Missing or invalid stopId"))
    else
      var duration := IntOr(Param(query, "duration"), DefaultDuration);
      var results := IntOr(Param(query, "results"), DefaultResults);
      Ask(DeparturesCall(stopId.value, duration, results))
  }

  /**
    A handler's call to the client inside its `try`: the data as a 200 JSON response, and a
    failure to create the client or of the call as a 500 whose message is `prefix` and the
    thrown message.
   */
  function Execute(step: Step, client: Result<Client, Thrown>, prefix: string): (r: Response)
    ensures step.Respond? ==> r == step.response
    ensures step.Ask? && client.Err? ==> r == Error(500, prefix + Describe(client.error))
    ensures step.Ask? && client.Ok? ==>
      var answer := client.value(step.call);
      (answer.Ok? ==> r == JsonOk(answer.value)) && (answer.Err? ==> r == Error(500, prefix + Describe(answer.error)))
  {
    match step
    case Respond(response) => response
    case Ask(call) =>
      match client
      case Err(e) => Error(500, prefix + Describe(e))
      case Ok(c) =>
        match c(call)
        case Ok(data) => JsonOk(data)
        case Err(e) => Error(500, prefix + Describe(e))
  }

  function GetLocations(req: Request, client: Result<Client, Thrown>): (r: Response)
    ensures r.status in {200, 400, 500}
    ensures IsOk(r) <==> r.status == 200
  {
    Execute(LocationsStep(req.query), client, LocationsFailure)
  }

  function GetDepartures(req: Request, client: Result<Client, Thrown>): (r: Response)
    ensures r.status in {200, 400, 500}
    ensures IsOk(r) <==> r.status == 200
    ensures r.status == 400 <==> Falsy(Param(req.params, "stopId"))
  {
    Execute(DeparturesStep(req.params, req.query), client, DeparturesFailure)
  }

  /**
    A request that names a stop asks the client for it with the query's numbers as they are:
    absent, non-numeric or zero values fall back to 30 and 7, and any other number, however
    large, is passed on.
   */
  lemma DeparturesDefaults(params: map<string, string>, query: map<string, string>)
    requires !Falsy(Param(params, "stopId"))
    ensures var call := DeparturesStep(params, query).call;
      && (Param(query, "duration").None? ==> call.duration == 30)
      && (Param(query, "results").None? ==> call.results == 7)
  {
  }

  /** No cap: a positive decimal number is used as it is, unlike the stand-alone worker's cap at 30 and 7. */
  lemma DeparturesUncapped(params: map<string, string>, query: map<string, string>, n: nat, m: nat)
    requires !Falsy(Param(params, "stopId")) && n >= 1 && m >= 1
    requires Param(query, "duration") == Some(Decimal(n)) && Param(query, "results") == Some(Decimal(m))
    ensures DeparturesStep(params, query).call == DeparturesCall(params["stopId"], n, m)
  {
    ParseIntDecimal(n);
    ParseIntDecimal(m);
  }

  /** A client that cannot be created answers every request that reaches it with a 500 naming the handler. */
  lemma ClientFailure(req: Request, e: Thrown)
    ensures !Falsy(Param(req.query, "query")) ==>
      GetLocations(req, Err(e)) == Error(500, LocationsFailure + Describe(e))
    ensures !Falsy(Param(req.params, "stopId")) ==>
      GetDepartures(req, Err(e)) == Error(500, DeparturesFailure + Describe(e))
  {
  }
}

=== FILE: http.dfy ===
/**
  What the request handlers see of HTTP and of the timetable client: the parts of a request they
  read, the responses they build, the values they throw, and the two client calls they make.
 */
module Http {
  import opened Results
  import opened Json
  import opened JsText

  /**
    A request as the handlers read it: the `Authorization` header (absent when not sent), the
    URL's path, the first value of each query parameter, and the router's path parameters.
   */
  datatype Request = Request(
    authorization: Option<string>,
    pathname: string,
    query: map<string, string>,
    params: map<string, string>)

  /** A response body: JSON data, an error body built by the router's `error(status, message)`, an HTML page, or plain text. */
  datatype Body =
    | JsonBody(data: Value)
    | Problem(message: string)
    | Page(html: string)
    | Plain(text: string)

  /** `basicChallenge` is set when the response carries `WWW-Authenticate: Basic`. */
  datatype Response = Response(status: int, body: Body, basicChallenge: bool)

  /** `Response.ok`: a status in the 2xx range. */
  predicate IsOk(r: Response) {
    200 <= r.status <= 299
  }

  /** A JSON response with status 200. */
  function JsonOk(data: Value): (r: Response)
    ensures IsOk(r) && r.body == JsonBody(data)
  {
    Response(200, JsonBody(data), false)
  }

  /** The router's `error(status, message)`. */
  function Error(status: int, message: string): (r: Response)
    ensures r.status == status && r.body == Problem(message) && !r.basicChallenge
  {
    Response(status, Problem(message), false)
  }

  /** A thrown value: an `Error` object with its message, or anything else. */
  datatype Thrown = ErrorObject(message: string) | NonError

  /** `e instanceof Error ? e.message : 'Unknown error'`. */
  function Describe(e: Thrown): (m: string)
    ensures e.ErrorObject? ==> m == e.message
    ensures e.NonError? ==> m == "Unknown error"
  {
    match e
    case ErrorObject(message) => message
    case NonError => "Unknown error"
  }

  /** One call into the timetable client, with the arguments it is given. */
  datatype Call =
    | LocationsCall(query: string, results: int)
    | DeparturesCall(stopId: string, duration: int, results: int)

  /**
    The timetable client: what each call resolves to or rejects with. Creating the client can
    itself fail; that outcome is the `Err` of a `Result<Client, Thrown>`.
   */
  type Client = Call -> Result<Value, Thrown>

  /** A handler's decision before it talks to the client: answer at once, or make a call. */
  datatype Step = Respond(response: Response) | Ask(call: Call)

  /** `searchParams.get(name)` or `params[name]`: the value, or nothing when it is absent. */
  function Param(m: map<string, string>, name: string): (v: Option<string>)
    ensures v.Some? <==> name in m
    ensures v.Some? ==> v.value == m[name]
  {
    if name in m then Some(m[name]) else None
  }

  /** `!value` for a value that is absent or a string: absent and empty are both falsy. */
  predicate Falsy(v: Option<string>) {
    v.None? || v.value == ""
  }

  /** `headers.get('Authorization')` compared with a text: an absent header equals no text. */
  predicate HeaderIs(h: Option<string>, text: string) {
    h == Some(text)
  }

  /** String concatenation with a value that may be `undefined`, as `'Bearer ' + env.API_KEY` does. */
  function ShowOptional(v: Option<string>): (s: string)
    ensures v.Some? ==> s == v.value
    ensures v.None? ==> s == "undefined"
  {
    match v
    case Some(text) => text
    case None => "undefined"
  }

  // ---------------------------------------------------------------------------------------------
  // The query of a URL, as `new URL(…).searchParams.get(name)` reads it

  /** One piece of a query: the name before its first `=` and the value after it; no `=` gives an empty value. */
  function NameValue(piece: string): (nv: (string, string))
    ensures '=' !in nv.0
    ensures '=' in piece ==> piece == nv.0 + "=" + nv.1
    ensures '=' !in piece ==> nv == (piece, "")
  {
    var i := IndexOf(piece, '=');
    if i == |piece| then (piece, "")
    else
      assert piece == piece[..i] + "=" + piece[i + 1..];
      (piece[..i], piece[i + 1..])
  }

  /** Piece `i` is the first non-empty piece with its name. */
  predicate FirstNamed(pieces: seq<string>, i: int) {
    && 0 <= i < |pieces| && pieces[i] != ""
    && forall j :: 0 <= j < i ==> pieces[j] == "" || NameValue(pieces[j]).0 != NameValue(pieces[i]).0
  }

  /**
    The first value of each name among the pieces: the names are exactly those of the non-empty
    pieces, and each name's value comes from the first piece with that name.
   */
  function FirstValues(pieces: seq<string>): (q: map<string, string>)
    ensures forall k :: k in q ==> exists i :: 0 <= i < |pieces| && pieces[i] != "" && NameValue(pieces[i]).0 == k
    ensures forall i :: FirstNamed(pieces, i) ==> NameValue(pieces[i]).0 in q && q[NameValue(pieces[i]).0] == NameValue(pieces[i]).1
  {
    if |pieces| == 0 then map[]
    else
      var rest := FirstValues(pieces[1..]);
      var q := if pieces[0] == "" then rest else rest[NameValue(pieces[0]).0 := NameValue(pieces[0]).1];
      FirstValuesStep(pieces, rest, q);
      q
  }

  /** The step of `FirstValues`: a non-empty head piece overrides whatever the later pieces say about its name. */
  lemma FirstValuesStep(pieces: seq<string>, rest: map<string, string>, q: map<string, string>)
    requires |pieces| > 0
    requires forall k :: k in rest ==> exists i :: 0 <= i < |pieces| - 1 && pieces[1..][i] != "" && NameValue(pieces[1..][i]).0 == k
    requires forall i :: FirstNamed(pieces[1..], i) ==> NameValue(pieces[1..][i]).0 in rest && rest[NameValue(pieces[1..][i]).0] == NameValue(pieces[1..][i]).1
    requires q == if pieces[0] == "" then rest else rest[NameValue(pieces[0]).0 := NameValue(pieces[0]).1]
    ensures forall k :: k in q ==> exists i :: 0 <= i < |pieces| && pieces[i] != "" && NameValue(pieces[i]).0 == k
    ensures forall i :: FirstNamed(pieces, i) ==> NameValue(pieces[i]).0 in q && q[NameValue(pieces[i]).0] == NameValue(pieces[i]).1
  {
    forall k | k in q ensures exists i :: 0 <= i < |pieces| && pieces[i] != "" && NameValue(pieces[i]).0 == k {
      if pieces[0] == "" || k != NameValue(pieces[0]).0 {
        var i :| 0 <= i < |pieces| - 1 && pieces[1..][i] != "" && NameValue(pieces[1..][i]).0 == k;
        assert pieces[i + 1] == pieces[1..][i];
      }
    }
    forall i | FirstNamed(pieces, i) ensures NameValue(pieces[i]).0 in q && q[NameValue(pieces[i]).0] == NameValue(pieces[i]).1 {
      if i > 0 {
        assert pieces[1..][i - 1] == pieces[i];
        assert FirstNamed(pieces[1..], i - 1) by {
          forall j | 0 <= j < i - 1
            ensures pieces[1..][j] == "" || NameValue(pieces[1..][j]).0 != NameValue(pieces[1..][i - 1]).0
          {
            assert pieces[1..][j] == pieces[j + 1];
          }
        }
      }
    }
  }

  /**
    `URLSearchParams` over the text after `?`: the text is cut at every `&`, empty pieces are
    skipped, and `get` answers with the first value of a name.
   */
  function SearchParams(search: string): (q: map<string, string>)
    ensures '&' !in search && search != "" ==> q == map[NameValue(search).0 := NameValue(search).1]
  {
    if '&' !in search then
      SplitJoin([search], '&');
      FirstValues(Split(search, '&'))
    else FirstValues(Split(search, '&'))
  }

  /**
    The query of a URL whose text after the path is `tail`: the text after the first `?` up to
    the first `#`, none when `#` comes first or there is no `?`.
   */
  function UrlQuery(tail: string): (q: map<string, string>)
    ensures '?' !in tail ==> q == map[]
  {
    var beforeHash := tail[..IndexOf(tail, '#')];
    var i := IndexOf(beforeHash, '?');
    if i == |beforeHash| then map[] else SearchParams(beforeHash[i + 1..])
  }

  /** The path part of a URL text: everything before the first `?` or `#`. */
  function UrlPath(tail: string): (p: string)
    ensures '?' !in p && '#' !in p
    ensures '?' !in tail && '#' !in tail ==> p == tail
  {
    var beforeHash := tail[..IndexOf(tail, '#')];
    beforeHash[..IndexOf(beforeHash, '?')]
  }

  /** A URL text whose first `?` follows a plain path and whose query has no `#`: the query is that text's search params. */
  lemma UrlQueryAfter(path: string, search: string)
    requires '?' !in path && '#' !in path && '#' !in search
    ensures UrlQuery(path + "?" + search) == SearchParams(search)
  {
    var tail := path + "?" + search;
    assert '#' !in tail;
    assert tail[..IndexOf(tail, '#')] == tail;
    IndexOfPrefix(path, '?', search);
    assert tail[|path| + 1..] == search;
  }

  /** `name=value` with a name free of `=` splits back into that name and value. */
  lemma NameOfPiece(name: string, value: string)
    requires '=' !in name
    ensures NameValue(name + "=" + value) == (name, value)
  {
    IndexOfPrefix(name, '=', value);
    var piece := name + "=" + value;
    assert piece[..|name|] == name && piece[|name| + 1..] == value;
  }

  /** A URL text with the one query parameter `name=value` after a plain path: that parameter is the whole query. */
  lemma SingleParamQuery(path: string, piece: string, name: string, value: string)
    requires '?' !in path && '#' !in path
    requires piece == name + "=" + value
    requires name != "" && '=' !in name && '&' !in name && '#' !in name
    requires '&' !in value && '#' !in value
    ensures UrlQuery(path + "?" + piece) == map[name := value]
  {
    assert '#' !in piece && '&' !in piece && |piece| > 0;
    assert UrlQuery(path + "?" + piece) == SearchParams(piece) by {
      UrlQueryAfter(path, piece);
    }
    NameOfPiece(name, value);
  }
}

=== FILE: js_numbers.dfy ===
/**
  ECMAScript's global `parseInt` called without a radix (section 19.2.5 of ECMA-262), and the
  `parseInt(p || '') || fallback` idiom the request handlers use to default a numeric query
  parameter. `None` stands for `NaN`; `-0` and `+0` are both `0`.
 */
module JsNumbers {
  import opened Results
  import opened JsText

  /** The value of `c` as a digit in base `radix` (10 or 16), or -1 when it is not one. */
  function DigitValue(c: char, radix: nat): (d: int)
    ensures d == -1 || 0 <= d < radix
    ensures radix == 10 ==> (d >= 0 <==> IsDigit(c))
  {
    if '0' <= c <= '9' && (c as int) - ('0' as int) < radix then (c as int) - ('0' as int)
    else if radix == 16 && 'a' <= c <= 'f' then (c as int) - ('a' as int) + 10
    else if radix == 16 && 'A' <= c <= 'F' then (c as int) - ('A' as int) + 10
    else -1
  }

  predicate IsRadixDigit(c: char, radix: nat) {
    DigitValue(c, radix) >= 0
  }

  /** The longest prefix of `s` made of base-`radix` digits. */
  function DigitRun(s: string, radix: nat): (z: string)
    ensures |z| <= |s| && z == s[..|z|]
    ensures Digits(z, radix)
    ensures |z| < |s| ==> !IsRadixDigit(s[|z|], radix)
  {
    if |s| > 0 && IsRadixDigit(s[0], radix) then [s[0]] + DigitRun(s[1..], radix) else ""
  }

  /** Every character of `z` is a base-`radix` digit. */
  predicate Digits(z: string, radix: nat) {
    forall i :: 0 <= i < |z| ==> IsRadixDigit(z[i], radix)
  }

  /** The number a run of digits denotes, most significant digit first. */
  function DigitsValue(z: string, radix: nat): (n: nat)
    requires Digits(z, radix)
  {
    if |z| == 0 then 0
    else
      DigitsInit(z, radix);
      DigitsValue(z[..|z| - 1], radix) * radix + DigitValue(z[|z| - 1], radix)
  }

  /** A run of digits without its last one is still a run of digits, and its last one is a digit. */
  lemma DigitsInit(z: string, radix: nat)
    requires |z| > 0 && Digits(z, radix)
    ensures Digits(z[..|z| - 1], radix)
    ensures DigitValue(z[|z| - 1], radix) >= 0
  {
    assert IsRadixDigit(z[|z| - 1], radix);
  }

  /** Strips a `0x`/`0X` prefix, which switches the radix to 16. */
  function Radix(u: string): (r: (nat, string))
    ensures r.0 == 10 || r.0 == 16
  {
    if |u| >= 2 && u[0] == '0' && (u[1] == 'x' || u[1] == 'X') then (16, u[2..]) else (10, u)
  }

  /**
    `parseInt(s)`: after leading white space and an optional sign (with `0x` switching to
    hexadecimal), the longest digit run is read; no digit at all gives `NaN`.
   */
  function ParseInt(s: string): (r: Option<int>)
    ensures |TrimStart(s)| == 0 ==> r.None?
    ensures r.Some? && r.value < 0 ==> TrimStart(s)[0] == '-'
  {
    var t := TrimStart(s);
    var negative := |t| > 0 && t[0] == '-';
    var u := TrimSign(t);
    var (radix, w) := Radix(u);
    var z := DigitRun(w, radix);
    if |z| == 0 then None
    else
      var m: int := DigitsValue(z, radix);
      Some(if negative then -m else m)
  }

  /** Drops one leading `+` or `-`. */
  function TrimSign(t: string): string {
    if |t| > 0 && (t[0] == '-' || t[0] == '+') then t[1..] else t
  }

  /**
    `parseInt(p || '') || fallback`: the parameter's number when it has one and it is not 0;
    otherwise (absent, empty, no leading digits, zero) the fallback.
   */
  function IntOr(p: Option<string>, fallback: int): (n: int)
    ensures p.None? || ParseInt(p.value).None? || ParseInt(p.value) == Some(0) ==> n == fallback
    ensures p.Some? && ParseInt(p.value).Some? && ParseInt(p.value).value != 0 ==>
      n == ParseInt(p.value).value
  {
    match p
    case None => fallback
    case Some(text) =>
      match ParseInt(text)
      case None => fallback
      case Some(m) => if m == 0 then fallback else m
  }

  /** The shortest decimal text of a natural number. */
  function Decimal(n: nat): (s: string)
    ensures |s| >= 1
    ensures forall i :: 0 <= i < |s| ==> IsDigit(s[i])
    ensures s[0] == '0' ==> n == 0 && |s| == 1
  {
    if n < 10 then [('0' as int + n) as char]
    else Decimal(n / 10) + [('0' as int + n % 10) as char]
  }

  /** Reading back the decimal text of `n` gives `n`. */
  lemma {:induction false} DecimalValue(n: nat)
    ensures Digits(Decimal(n), 10)
    ensures DigitsValue(Decimal(n), 10) == n
  {
    var s := Decimal(n);
    assert Digits(s, 10);
    if n >= 10 {
      DecimalValue(n / 10);
      assert s[..|s| - 1] == Decimal(n / 10);
    }
  }

  /** `parseInt` is a left inverse of decimal printing: `parseInt(String(n)) == n`. */
  lemma ParseIntDecimal(n: nat)
    ensures ParseInt(Decimal(n)) == Some(n)
  {
    var s := Decimal(n);
    assert IsDigit(s[0]) && !IsSpace(s[0]);
    TrimStartOfTrimmed(s);
    assert TrimSign(s) == s;
    assert Radix(s) == (10, s);
    DecimalValue(n);
    DigitRunAll(s, 10);
  }

  /** Likewise for a negative number written with a minus sign. */
  lemma ParseIntNegative(n: nat)
    ensures ParseInt("-" + Decimal(n)) == Some(-(n as int))
  {
    var s := Decimal(n);
    var t := "-" + s;
    assert t[0] == '-' && !IsSpace(t[0]);
    TrimStartOfTrimmed(t);
    assert t[1..] == s;
    assert TrimSign(t) == s;
    assert IsDigit(s[0]);
    assert Radix(s) == (10, s);
    DecimalValue(n);
    DigitRunAll(s, 10);
  }

  /** The digit run of a text made only of digits is the whole text. */
  lemma {:induction false} DigitRunAll(s: string, radix: nat)
    requires Digits(s, radix)
    ensures DigitRun(s, radix) == s
  {
    if |s| > 0 {
      DigitRunAll(s[1..], radix);
    }
  }
}

=== FILE: js_text.dfy ===
/**
  The few ECMAScript string operations the core relies on: `trim`, `trimStart`, `split` on a
  one-character separator and `startsWith`, together with the character classes `\s` and `.`
  of ECMAScript regular expressions (section 22.2 of ECMA-262). Characters are Unicode scalar
  values: a character outside the Basic Multilingual Plane is one character here where
  JavaScript counts two code units, and lone surrogates cannot occur. No operation of the
  model depends on the difference.
 */
module JsText {

  /** LineTerminator of ECMA-262 section 12.3: the characters `.` refuses to match. */
  predicate IsLineTerminator(c: char) {
    c == '\n' || c == '\r' || c == '\U{2028}' || c == '\U{2029}'
  }

  /** WhiteSpace or LineTerminator: what `\s` matches and what `trim` removes. */
  predicate IsSpace(c: char) {
    || IsLineTerminator(c)
    || c == '\t' || c == '\U{B}' || c == '\U{C}' || c == ' ' || c == '\U{A0}' || c == '\U{FEFF}'
    || c == '\U{1680}' || ('\U{2000}' <= c <= '\U{200A}')
    || c == '\U{202F}' || c == '\U{205F}' || c == '\U{3000}'
  }

  predicate IsDigit(c: char) {
    '0' <= c <= '9'
  }

  predicate AllSpace(s: string) {
    forall i :: 0 <= i < |s| ==> IsSpace(s[i])
  }

  /** No leading and no trailing white space. */
  predicate Trimmed(s: string) {
    |s| > 0 ==> !IsSpace(s[0]) && !IsSpace(s[|s| - 1])
  }

  /** The number of white-space characters the text starts with: the index of the first other one. */
  function LeadingSpace(s: string): (n: nat)
    ensures n <= |s|
    ensures n < |s| ==> !IsSpace(s[n])
  {
    if |s| > 0 && IsSpace(s[0]) then 1 + LeadingSpace(s[1..]) else 0
  }

  /** The number of white-space characters the text ends with. */
  function TrailingSpace(s: string): (n: nat)
    ensures n <= |s|
    ensures n < |s| ==> !IsSpace(s[|s| - n - 1])
  {
    if |s| > 0 && IsSpace(s[|s| - 1]) then 1 + TrailingSpace(s[..|s| - 1]) else 0
  }

  /** Everything before the first non-space character is white space. */
  lemma {:induction false} LeadingSpaceAll(s: string)
    ensures AllSpace(s[..LeadingSpace(s)])
  {
    if |s| > 0 && IsSpace(s[0]) {
      LeadingSpaceAll(s[1..]);
      assert s[..LeadingSpace(s)] == [s[0]] + s[1..][..LeadingSpace(s[1..])];
    }
  }

  /** Everything after the last non-space character is white space. */
  lemma {:induction false} TrailingSpaceAll(s: string)
    ensures AllSpace(s[|s| - TrailingSpace(s)..])
  {
    if |s| > 0 && IsSpace(s[|s| - 1]) {
      var t := s[..|s| - 1];
      TrailingSpaceAll(t);
      assert s[|s| - TrailingSpace(s)..] == t[|t| - TrailingSpace(t)..] + [s[|s| - 1]];
    }
  }

  /** `String.prototype.trimStart`: drops the longest all-space prefix. */
  function TrimStart(s: string): (r: string)
    ensures |r| <= |s| && r == s[|s| - |r|..]
    ensures AllSpace(s[..|s| - |r|])
    ensures |r| > 0 ==> !IsSpace(r[0])
  {
    LeadingSpaceAll(s);
    s[LeadingSpace(s)..]
  }

  /** `String.prototype.trim`: the text between the leading and the trailing white space. */
  function Trim(s: string): (r: string)
    ensures Trimmed(r) && |r| <= |s|
  {
    var i := LeadingSpace(s);
    s[i..|s| - TrailingSpace(s[i..])]
  }

  /** What `trim` keeps: a run of the text that only white space surrounds. */
  lemma TrimShape(s: string)
    ensures var r := Trim(s); var i := |s| - |TrimStart(s)|;
      i + |r| <= |s| && r == s[i..i + |r|] && AllSpace(s[..i]) && AllSpace(s[i + |r|..])
  {
    var i := LeadingSpace(s);
    var t := s[i..];
    var k := TrailingSpace(t);
    assert |s| - |TrimStart(s)| == i;
    LeadingSpaceAll(s);
    TrailingSpaceAll(t);
    assert s[|s| - k..] == t[|t| - k..];
  }

  /** `trim` only removes characters: one the text does not hold, its trimmed text does not hold either. */
  lemma TrimKeeps(s: string, c: char)
    ensures c !in s ==> c !in Trim(s)
  {
    TrimShape(s);
    var r := Trim(s);
    var i := |s| - |TrimStart(s)|;
    assert forall k :: 0 <= k < |r| ==> r[k] == s[i + k];
  }

  lemma TrimStartOfTrimmed(s: string)
    requires |s| == 0 || !IsSpace(s[0])
    ensures TrimStart(s) == s
  {
  }

  /** Trimming leaves text without outer white space unchanged. */
  lemma TrimOfTrimmed(s: string)
    requires Trimmed(s)
    ensures Trim(s) == s
  {
    assert LeadingSpace(s) == 0;
    assert s[0..] == s;
  }

  /** The number of leading white-space characters is the length of an all-space prefix followed by anything else. */
  lemma {:induction false} LeadingSpaceOf(ws: string, p: string)
    requires AllSpace(ws)
    requires |p| == 0 || !IsSpace(p[0])
    ensures LeadingSpace(ws + p) == |ws| && (ws + p)[|ws|..] == p
  {
    if |ws| == 0 {
      assert ws + p == p;
    } else {
      assert (ws + p)[0] == ws[0];
      assert (ws + p)[1..] == ws[1..] + p;
      LeadingSpaceOf(ws[1..], p);
    }
  }

  /** Leading white space in front of text that does not start with white space is all `trimStart` removes. */
  lemma TrimStartAfterSpace(ws: string, p: string)
    requires AllSpace(ws)
    requires |p| == 0 || !IsSpace(p[0])
    ensures TrimStart(ws + p) == p
  {
    LeadingSpaceOf(ws, p);
  }

  /** `trim` drops leading white space in front of trimmed text. */
  lemma TrimAfterSpace(ws: string, p: string)
    requires AllSpace(ws) && Trimmed(p)
    ensures Trim(ws + p) == p
  {
    LeadingSpaceOf(ws, p);
    assert TrailingSpace(p) == 0;
    assert p[..|p|] == p;
  }

  /** `s.startsWith(p)`. */
  predicate StartsWith(s: string, p: string) {
    |p| <= |s| && s[..|p|] == p
  }

  /** The index of the first `c` in `s`, or `|s|` when there is none. */
  function IndexOf(s: string, c: char): (i: nat)
    ensures i <= |s|
    ensures forall j :: 0 <= j < i ==> s[j] != c
    ensures i < |s| ==> s[i] == c
    ensures i == |s| <==> c !in s
  {
    if |s| == 0 then 0 else if s[0] == c then 0 else 1 + IndexOf(s[1..], c)
  }

  /** The inverse of `Split`: the parts with `sep` between each two neighbours. */
  function Join(parts: seq<string>, sep: char): string {
    if |parts| == 0 then ""
    else if |parts| == 1 then parts[0]
    else parts[0] + [sep] + Join(parts[1..], sep)
  }

  /**
    `s.split(sep)` for a one-character separator: at least one part, none containing `sep`,
    and the parts joined back by `sep` give `s` again (so `"".split(",")` is `[""]`).
   */
  function Split(s: string, sep: char): (parts: seq<string>)
    ensures |parts| >= 1
    ensures forall k :: 0 <= k < |parts| ==> sep !in parts[k]
    ensures Join(parts, sep) == s
    decreases |s|
  {
    var i := IndexOf(s, sep);
    if i == |s| then [s]
    else
      var tail := Split(s[i + 1..], sep);
      var parts := [s[..i]] + tail;
      assert s == s[..i] + [sep] + s[i + 1..];
      JoinCons(s[..i], tail, sep);
      assert forall k :: 0 < k < |parts| ==> parts[k] == tail[k - 1];
      parts
  }

  /** Joining a part in front of at least one more puts a separator between them. */
  lemma JoinCons(p: string, tail: seq<string>, sep: char)
    requires |tail| >= 1
    ensures Join([p] + tail, sep) == p + [sep] + Join(tail, sep)
  {
    assert ([p] + tail)[1..] == tail;
  }

  /** The first part of a split is the text before the first separator. */
  lemma SplitHead(s: string, sep: char)
    ensures Split(s, sep)[0] == s[..IndexOf(s, sep)]
  {
  }

  /** With a separator present, the second part is the text between the first and the second one. */
  lemma SplitSecond(s: string, sep: char)
    ensures IndexOf(s, sep) < |s| <==> |Split(s, sep)| >= 2
    ensures IndexOf(s, sep) < |s| ==>
      var rest := s[IndexOf(s, sep) + 1..]; Split(s, sep)[1] == rest[..IndexOf(rest, sep)]
  {
    var i := IndexOf(s, sep);
    if i < |s| {
      SplitHead(s[i + 1..], sep);
    }
  }

  /** Splitting a separator-free part, a separator and more text yields that part, then the split of the rest. */
  lemma SplitCons(p: string, sep: char, rest: string)
    requires sep !in p
    ensures Split(p + [sep] + rest, sep) == [p] + Split(rest, sep)
  {
    var s := p + [sep] + rest;
    IndexOfPrefix(p, sep, rest);
    assert s[..|p|] == p && s[|p| + 1..] == rest;
  }

  /** The parts of a split are exactly the given parts when none of them contains the separator. */
  lemma {:induction false} SplitJoin(parts: seq<string>, sep: char)
    requires |parts| >= 1
    requires forall k :: 0 <= k < |parts| ==> sep !in parts[k]
    ensures Split(Join(parts, sep), sep) == parts
  {
    if |parts| == 1 {
      assert IndexOf(parts[0], sep) == |parts[0]|;
    } else {
      SplitCons(parts[0], sep, Join(parts[1..], sep));
      SplitJoin(parts[1..], sep);
      assert parts == [parts[0]] + parts[1..];
    }
  }

  /** A separator right after a separator-free prefix is the first one. */
  lemma {:induction false} IndexOfPrefix(p: string, sep: char, rest: string)
    requires sep !in p
    ensures IndexOf(p + [sep] + rest, sep) == |p|
  {
    var s := p + [sep] + rest;
    assert s[|p|] == sep;
    assert forall j :: 0 <= j < |p| ==> s[j] == p[j];
  }
}

=== FILE: json.dfy ===
/**
  Structured values (what `JSON.parse` produces and what template variables hold) and the
  template context: a stack of scopes consulted innermost first.
 */
module Json {
  import opened Results

  /** A JSON value; numbers are integers in this model. */
  datatype Value =
    | Null
    | Bool(b: bool)
    | Num(n: int)
    | Str(s: string)
    | Arr(items: seq<Value>)
    | Obj(fields: map<string, Value>)

  /** One layer of variable bindings. */
  type Scope = map<string, Value>

  /** The context's scopes, outermost first; the last one is the innermost. */
  type Scopes = seq<Scope>

  /** `obj[key]` of a destructuring assignment: an absent field or a non-object reads as null. */
  function Field(v: Value, key: string): (r: Value)
    ensures v.Obj? && key in v.fields ==> r == v.fields[key]
    ensures !(v.Obj? && key in v.fields) ==> r == Null
  {
    if v.Obj? && key in v.fields then v.fields[key] else Null
  }

  /** Scope `i` binds `key` and no scope inside it does. */
  predicate Innermost(scopes: Scopes, key: string, i: int) {
    0 <= i < |scopes| && key in scopes[i] && forall j :: i < j < |scopes| ==> key !in scopes[j]
  }

  /**
    Innermost-first variable lookup: the binding of the last scope that has `key`, or nothing
    when no scope has it.
   */
  function Lookup(scopes: Scopes, key: string): (r: Option<Value>)
    ensures r.None? <==> forall i :: 0 <= i < |scopes| ==> key !in scopes[i]
    ensures r.Some? ==> exists i :: Innermost(scopes, key, i) && r.value == scopes[i][key]
  {
    if |scopes| == 0 then None
    else if key in scopes[|scopes| - 1] then
      assert Innermost(scopes, key, |scopes| - 1);
      Some(scopes[|scopes| - 1][key])
    else
      var r := Lookup(scopes[..|scopes| - 1], key);
      LookupOuter(scopes, key, r);
      r
  }

  /** `r` is what a lookup of `key` in `scopes` should give. */
  ghost predicate Finds(scopes: Scopes, key: string, r: Option<Value>) {
    && (r.None? <==> forall i :: 0 <= i < |scopes| ==> key !in scopes[i])
    && (r.Some? ==> exists i :: Innermost(scopes, key, i) && r.value == scopes[i][key])
  }

  /** When the innermost scope lacks `key`, the lookup in the outer scopes answers for all of them. */
  lemma LookupOuter(scopes: Scopes, key: string, r: Option<Value>)
    requires |scopes| > 0 && key !in scopes[|scopes| - 1]
    requires Finds(scopes[..|scopes| - 1], key, r)
    ensures Finds(scopes, key, r)
  {
    var outer := scopes[..|scopes| - 1];
    if r.Some? {
      var i :| Innermost(outer, key, i) && r.value == outer[i][key];
      forall j | i < j < |scopes| ensures key !in scopes[j] {
        if j < |outer| {
          assert outer[j] == scopes[j];
        }
      }
      assert outer[i] == scopes[i];
      assert Innermost(scopes, key, i);
    } else {
      forall i | 0 <= i < |scopes| ensures key !in scopes[i] {
        if i < |outer| {
          assert outer[i] == scopes[i];
        }
      }
    }
  }

  /** A pushed scope shadows the outer ones for its keys and lets every other lookup fall through. */
  lemma PushShadows(scopes: Scopes, scope: Scope, key: string)
    ensures key in scope ==> Lookup(scopes + [scope], key) == Some(scope[key])
    ensures key !in scope ==> Lookup(scopes + [scope], key) == Lookup(scopes, key)
  {
    assert (scopes + [scope])[..|scopes|] == scopes;
  }
}

=== FILE: liquid_examples.dfy ===
/** Whole-document behaviour of the macro layer on small documents. */
module LiquidExamples {
  import opened Results
  import opened JsText
  import opened Json
  import opened LiquidSyntax
  import opened LiquidRender

  const End := TagToken(EndDefinitionTag, "", "{% endtemplate %}")

  /** `{% template NAME %}` as the tokenizer hands it over. */
  function DefineToken(name: string): Token {
    TagToken(DefinitionTag, name, "{% template " + name + " %}")
  }

  /** `{% render "NAME" %}` as the tokenizer hands it over. */
  function InvokeToken(name: string): Token {
    TagToken(InvocationTag, "\"" + name + "\"", "{% render \"" + name + "\" %}")
  }

  /** A document of one token other than a definition parses to that token's node. */
  lemma SingleLeaf(t: Token, hostTags: set<string>)
    requires !(t.TagToken? && t.name == DefinitionTag) && Leaf(t, hostTags).Ok?
    ensures ParseAll([t], hostTags) == Ok([Leaf(t, hostTags).value])
  {
    assert [t][1..] == [];
    assert ParseNode([t], hostTags) == Ok((Leaf(t, hostTags).value, []));
    assert [Leaf(t, hostTags).value] + [] == [Leaf(t, hostTags).value];
  }

  /** A `render` tag naming a plain macro without parameters parses to an invocation of that name. */
  lemma InvokeTokenParses(name: string, hostTags: set<string>)
    requires ValidName(name)
    ensures ParseAll([InvokeToken(name)], hostTags) == Ok([Invoke(name, "")])
  {
    var args := "\"" + name + "\"";
    assert args[1..|name| + 1] == name;
    TrimOfTrimmed(args);
    RenderArgsComplete(args, name, "");
    SingleLeaf(InvokeToken(name), hostTags);
  }

  function TwoDefinitionsTokens(name: string): seq<Token> {
    [DefineToken(name)] + [TextToken("1")] + [End] + ([DefineToken(name)] + [TextToken("2")] + [End] + [InvokeToken(name)])
  }

  function TwoDefinitionsNodes(name: string): seq<Node> {
    [Define(name, [TextNode("1")])] + ([Define(name, [TextNode("2")])] + [Invoke(name, "")])
  }

  /** A definition whose body is one piece of text, followed by any parseable tokens. */
  lemma DefineTextParse(name: string, text: string, post: seq<Token>, hostTags: set<string>)
    requires Trimmed(name) && ParseAll(post, hostTags).Ok?
    ensures ParseAll([DefineToken(name)] + [TextToken(text)] + [End] + post, hostTags)
         == Ok([Define(name, [TextNode(text)])] + ParseAll(post, hostTags).value)
  {
    var body := [TextToken(text)];
    assert Trim(name) == name by { TrimOfTrimmed(name); }
    assert Flat(body) && IsEnd(End);
    assert ParseAll(body, hostTags) == Ok([TextNode(text)]) by {
      assert Leaf(TextToken(text), hostTags) == Ok(TextNode(text));
      SingleLeaf(TextToken(text), hostTags);
    }
    DefinitionParse(name, DefineToken(name).raw, body, End, post, hostTags);
  }

  lemma TwoDefinitionsParse(name: string, hostTags: set<string>)
    requires ValidName(name) && Trimmed(name)
    ensures ParseAll(TwoDefinitionsTokens(name), hostTags) == Ok(TwoDefinitionsNodes(name))
  {
    var last := [InvokeToken(name)];
    var tail := [DefineToken(name)] + [TextToken("2")] + [End] + last;
    InvokeTokenParses(name, hostTags);
    DefineTextParse(name, "2", last, hostTags);
    DefineTextParse(name, "1", tail, hostTags);
  }

  lemma TwoDefinitionsRender(name: string, data: Scope, host: Host, fuel: nat)
    requires fuel > 0
    ensures RenderNodes(TwoDefinitionsNodes(name), map[], [data], host, fuel).Ok?
    ensures RenderNodes(TwoDefinitionsNodes(name), map[], [data], host, fuel).value.out == "2"
  {
    var nodes := TwoDefinitionsNodes(name);
    var nodes2 := [Define(name, [TextNode("2")]), Invoke(name, "")];
    var reg1 := map[name := [TextNode("1")]];
    var reg2 := reg1[name := [TextNode("2")]];
    var stack := [data];
    assert RenderNode(Define(name, [TextNode("1")]), map[], stack, host, fuel) == Ok(Rendered("", reg1, stack));
    DefineThenInvoke(name, [TextNode("2")], reg1, stack, host, fuel);
    var body := RenderNodes([TextNode("2")], reg2, stack, host, fuel - 1);
    assert [TextNode("2")][1..] == [];
    assert RenderNodes([], reg2, stack, host, fuel - 1) == Ok(Rendered("", reg2, stack));
    assert body == Ok(Rendered("2" + "", reg2, stack));
    assert "2" + "" == "2";
    assert RenderNodes(nodes2, reg1, stack, host, fuel) == Ok(Rendered("2", reg2, stack));
    assert nodes[0] == Define(name, [TextNode("1")]) && nodes[1..] == nodes2;
    assert RenderNodes(nodes, map[], stack, host, fuel) == Ok(Rendered("" + "2", reg2, stack));
  }

  /**
    Two definitions of one name with different bodies and then an invocation of it: the
    document renders to the second body alone.
   */
  lemma LastWriteWinsDocument(name: string, hostTags: set<string>, data: Scope, host: Host, fuel: nat)
    requires ValidName(name) && Trimmed(name) && fuel > 0
    ensures ParseAndRender(TwoDefinitionsTokens(name), hostTags, data, host, fuel) == Ok("2")
  {
    TwoDefinitionsParse(name, hostTags);
    TwoDefinitionsRender(name, data, host, fuel);
  }

  /**
    A definition never closed by `endtemplate` makes the whole document fail to parse; with a
    plain body the error is `tag {% template NAME %} not closed`.
   */
  lemma UnclosedDefinitionFails(name: string, body: seq<Token>, hostTags: set<string>, data: Scope, host: Host, fuel: nat)
    requires forall i :: 0 <= i < |body| ==> !IsEnd(body[i])
    ensures ParseAndRender([DefineToken(name)] + body, hostTags, data, host, fuel).Err?
    ensures Flat(body) && ParseAll(body, hostTags).Ok? ==>
      ParseAndRender([DefineToken(name)] + body, hostTags, data, host, fuel) == Err(ParseFailed(NotClosed(DefineToken(name).raw)))
  {
    var tokens := [DefineToken(name)] + body;
    assert tokens[1..] == body;
    NoSentinelFails(body, DefineToken(name).raw, hostTags);
  }
}

=== FILE: liquid_render.dfy ===
/**
  The render half of the macro layer: a definition stores its body in the engine's registry
  (last write wins) and emits nothing; an invocation looks its target up, binds its parameters
  in one new scope, renders the body against the augmented context, pops the scope and emits
  the body's text in place. Also the `parse_json` filter.

  Rendering is plain sequential evaluation of the host's suspendable steps. Expression
  evaluation, output stringification and the host's own tags are supplied by the host.
 */
module LiquidRender {
  import opened Results
  import opened JsText
  import opened Json
  import opened LiquidSyntax

  /** The engine's macros: name to parsed body. One registry per engine instance. */
  type Registry = map<string, seq<Node>>

  /** What the host engine supplies to the macro layer. */
  datatype Host = Host(
    eval: (Option<string>, Scopes) -> Result<Value, string>, // `evalValue`; `None` is an `undefined` source
    show: Value -> string,                                    // how an output's value is written
    tag: (string, string, Scopes) -> Result<string, string>)  // a host leaf tag's output

  datatype RenderError =
    | Missing(name: string)      // `Template "NAME" not found`
    | HostFailure(message: string)
    | TooDeep                    // the model's own bound on macro nesting; the program has none

  /** The emitted text and the engine state after rendering. */
  datatype Rendered = Rendered(out: string, registry: Registry, stack: Scopes)

  // ---------------------------------------------------------------------------------------------
  // Building the invocation's scope

  /** No later key repeats `keys[i]`. */
  predicate LastOccurrence(keys: seq<string>, i: int) {
    0 <= i < |keys| && forall j :: i < j < |keys| ==> keys[j] != keys[i]
  }

  /**
    `scope[key] = value` for each clause in order: every key is bound, and a key given more
    than once is bound to the value of its last clause.
   */
  function Bind(keys: seq<string>, vals: seq<Value>): (scope: Scope)
    requires |keys| == |vals|
    ensures forall k :: k in scope <==> k in keys
    ensures forall i :: LastOccurrence(keys, i) ==> scope[keys[i]] == vals[i]
  {
    if |keys| == 0 then map[]
    else
      var n := |keys| - 1;
      var prior := Bind(keys[..n], vals[..n]);
      BindLast(keys, vals, prior);
      prior[keys[n] := vals[n]]
  }

  /** `scope` binds exactly `keys`, each to the value of its last clause. */
  ghost predicate Binds(scope: Scope, keys: seq<string>, vals: seq<Value>)
    requires |keys| == |vals|
  {
    && (forall k :: k in scope <==> k in keys)
    && (forall i :: LastOccurrence(keys, i) ==> scope[keys[i]] == vals[i])
  }

  /** Binding the last clause over the scope of the others gives the scope of all of them. */
  lemma BindLast(keys: seq<string>, vals: seq<Value>, prior: Scope)
    requires |keys| == |vals| > 0
    requires Binds(prior, keys[..|keys| - 1], vals[..|keys| - 1])
    ensures Binds(prior[keys[|keys| - 1] := vals[|keys| - 1]], keys, vals)
  {
    var n := |keys| - 1;
    var scope := prior[keys[n] := vals[n]];
    assert keys == keys[..n] + [keys[n]];
    forall i | LastOccurrence(keys, i) ensures scope[keys[i]] == vals[i] {
      if i < n {
        assert LastOccurrence(keys[..n], i) && keys[..n][i] == keys[i] && keys[i] != keys[n];
      }
    }
  }

  /**
    Evaluates the clauses' expressions in order, each against the context as it was before the
    invocation; the first failure stops the evaluation.
   */
  function EvalAll(cs: seq<Clause>, stack: Scopes, host: Host): (r: Result<seq<Value>, RenderError>)
    ensures r.Ok? ==> |r.value| == |cs|
    ensures r.Ok? ==> forall i :: 0 <= i < |cs| ==> host.eval(cs[i].expr, stack) == Ok(r.value[i])
    ensures r.Err? ==> exists i :: FirstFailure(cs, stack, host, i) && r.error == HostFailure(host.eval(cs[i].expr, stack).error)
  {
    if |cs| == 0 then Ok([])
    else
      var v :- host.eval(cs[0].expr, stack).MapError(m => HostFailure(m));
      var vs := EvalAll(cs[1..], stack, host);
      if vs.Err? then
        assert forall i :: FirstFailure(cs[1..], stack, host, i) ==> FirstFailure(cs, stack, host, i + 1);
        Err(vs.error)
      else
        Ok([v] + vs.value)
  }

  /** Clause `i` is the first whose expression fails to evaluate. */
  predicate FirstFailure(cs: seq<Clause>, stack: Scopes, host: Host, i: int) {
    && 0 <= i < |cs|
    && host.eval(cs[i].expr, stack).Err?
    && forall j :: 0 <= j < i ==> host.eval(cs[j].expr, stack).Ok?
  }

  function KeysOf(cs: seq<Clause>): (keys: seq<string>)
    ensures |keys| == |cs| && forall i :: 0 <= i < |cs| ==> keys[i] == cs[i].key
  {
    seq(|cs|, i requires 0 <= i < |cs| => cs[i].key)
  }

  /**
    The scope an invocation pushes for its clauses: it binds exactly the clauses' keys, each
    to the value of its last clause, and it fails exactly when some expression fails.
   */
  function MakeScope(cs: seq<Clause>, stack: Scopes, host: Host): (r: Result<Scope, RenderError>)
    ensures r.Ok? ==> forall k :: k in r.value <==> k in KeysOf(cs)
    ensures r.Ok? ==> forall i :: LastOccurrence(KeysOf(cs), i) ==> host.eval(cs[i].expr, stack) == Ok(r.value[cs[i].key])
    ensures r.Err? <==> exists i :: FirstFailure(cs, stack, host, i)
  {
    match EvalAll(cs, stack, host)
    case Err(e) => Err(e)
    case Ok(vals) =>
      assert forall i :: !FirstFailure(cs, stack, host, i);
      Ok(Bind(KeysOf(cs), vals))
  }

  // ---------------------------------------------------------------------------------------------
  // The interpreter

  /**
    Renders one node. A successful render leaves the context's stack as it found it and never
    removes a macro from the registry.
   */
  function RenderNode(n: Node, reg: Registry, stack: Scopes, host: Host, fuel: nat): (r: Result<Rendered, RenderError>)
    ensures r.Ok? ==> r.value.stack == stack && reg.Keys <= r.value.registry.Keys
    decreases fuel, 1
  {
    match n
    case TextNode(text) => Ok(Rendered(text, reg, stack))
    case OutputNode(expr) =>
      var v :- host.eval(Some(expr), stack).MapError(m => HostFailure(m));
      Ok(Rendered(host.show(v), reg, stack))
    case HostNode(name, args) =>
      var out :- host.tag(name, args, stack).MapError(m => HostFailure(m));
      Ok(Rendered(out, reg, stack))
    case Define(name, body) => Ok(Rendered("", reg[name := body], stack))
    case Invoke(target, params) => RenderInvoke(target, params, reg, stack, host, fuel)
  }

  /**
    The invocation tag: look the target up, bind the parameters in one pushed scope when there
    are any, render the body, pop the scope, emit the body's text.
   */
  function RenderInvoke(target: string, params: string, reg: Registry, stack: Scopes, host: Host, fuel: nat): (r: Result<Rendered, RenderError>)
    ensures r.Ok? ==> r.value.stack == stack && reg.Keys <= r.value.registry.Keys
    decreases fuel, 0
  {
    if target !in reg then Err(Missing(target))
    else if fuel == 0 then Err(TooDeep)
    else if params == "" then RenderNodes(reg[target], reg, stack, host, fuel - 1)
    else
      match MakeScope(Clauses(params), stack, host)
      case Err(e) => Err(e)
      case Ok(scope) =>
        match RenderNodes(reg[target], reg, stack + [scope], host, fuel - 1)
        case Err(e) => Err(e)
        case Ok(body) => Ok(Rendered(body.out, body.registry, body.stack[..|body.stack| - 1]))
  }

  /** Renders a node sequence in order, threading the registry and the context through. */
  function RenderNodes(ns: seq<Node>, reg: Registry, stack: Scopes, host: Host, fuel: nat): (r: Result<Rendered, RenderError>)
    ensures r.Ok? ==> r.value.stack == stack && reg.Keys <= r.value.registry.Keys
    decreases fuel, |ns| + 2
  {
    if |ns| == 0 then Ok(Rendered("", reg, stack))
    else
      var first :- RenderNode(ns[0], reg, stack, host, fuel);
      var rest :- RenderNodes(ns[1..], first.registry, first.stack, host, fuel);
      Ok(Rendered(first.out + rest.out, rest.registry, rest.stack))
  }

  /**
    Rendering `a + b` renders `a`, then renders `b` from the state `a` left, and writes the two
    texts one after the other; a failure in `a` is the failure of the whole.
   */
  lemma {:induction false} RenderConcat(a: seq<Node>, b: seq<Node>, reg: Registry, stack: Scopes, host: Host, fuel: nat)
    ensures var ra := RenderNodes(a, reg, stack, host, fuel);
      && (ra.Err? ==> RenderNodes(a + b, reg, stack, host, fuel) == Err(ra.error))
      && (ra.Ok? ==>
            var rb := RenderNodes(b, ra.value.registry, ra.value.stack, host, fuel);
            RenderNodes(a + b, reg, stack, host, fuel)
              == if rb.Err? then Err(rb.error)
                 else Ok(Rendered(ra.value.out + rb.value.out, rb.value.registry, rb.value.stack)))
    decreases |a|
  {
    if |a| == 0 {
      assert a + b == b;
      var rb := RenderNodes(b, reg, stack, host, fuel);
      if rb.Ok? {
        assert "" + rb.value.out == rb.value.out;
      }
    } else {
      assert (a + b)[0] == a[0];
      assert (a + b)[1..] == a[1..] + b;
      var first := RenderNode(a[0], reg, stack, host, fuel);
      if first.Ok? {
        RenderConcat(a[1..], b, first.value.registry, first.value.stack, host, fuel);
        var ra := RenderNodes(a[1..], first.value.registry, first.value.stack, host, fuel);
        if ra.Ok? {
          var rb := RenderNodes(b, ra.value.registry, ra.value.stack, host, fuel);
          if rb.Ok? {
            assert first.value.out + (ra.value.out + rb.value.out) == (first.value.out + ra.value.out) + rb.value.out;
          }
        }
      }
    }
  }

  /** A definition emits nothing and sets exactly its own name, overwriting any earlier body. */
  lemma DefinitionRegisters(name: string, body: seq<Node>, reg: Registry, stack: Scopes, host: Host, fuel: nat)
    ensures var r := RenderNodes([Define(name, body)], reg, stack, host, fuel);
      && r.Ok? && r.value.out == "" && r.value.stack == stack
      && r.value.registry.Keys == reg.Keys + {name} && r.value.registry[name] == body
      && forall other :: other in reg && other != name ==> r.value.registry[other] == reg[other]
  {
  }

  /** Two definitions of one name: the second one's body is what the registry keeps. */
  lemma LastDefinitionWins(name: string, first: seq<Node>, second: seq<Node>, reg: Registry, stack: Scopes, host: Host, fuel: nat)
    ensures var r := RenderNodes([Define(name, first), Define(name, second)], reg, stack, host, fuel);
      r.Ok? && r.value.out == "" && r.value.registry == reg[name := second]
  {
    var reg1 := reg[name := first];
    var tail := RenderNodes([Define(name, second)], reg1, stack, host, fuel);
    assert [Define(name, second)][1..] == [];
    assert RenderNode(Define(name, second), reg1, stack, host, fuel) == Ok(Rendered("", reg1[name := second], stack));
    assert RenderNodes([], reg1[name := second], stack, host, fuel) == Ok(Rendered("", reg1[name := second], stack));
    assert tail == Ok(Rendered("" + "", reg1[name := second], stack));
    assert [Define(name, first), Define(name, second)][1..] == [Define(name, second)];
    assert reg1[name := second] == reg[name := second];
  }

  /**
    An invocation of a name that has not been rendered as a definition yet fails with
    `Missing`, whatever follows it, including a later definition of that very name.
   */
  lemma RenderOrderVisibility(name: string, params: string, later: seq<Node>, reg: Registry, stack: Scopes, host: Host, fuel: nat)
    requires name !in reg
    ensures RenderNodes([Invoke(name, params)] + later, reg, stack, host, fuel) == Err(Missing(name))
  {
    assert ([Invoke(name, params)] + later)[0] == Invoke(name, params);
    assert RenderInvoke(name, params, reg, stack, host, fuel) == Err(Missing(name));
  }

  /**
    Without parameters an invocation pushes no scope: the body is rendered against the
    caller's context unchanged, and its text is the invocation's output.
   */
  lemma InvokeWithoutParams(name: string, reg: Registry, stack: Scopes, host: Host, fuel: nat)
    requires name in reg && fuel > 0
    ensures RenderInvoke(name, "", reg, stack, host, fuel) == RenderNodes(reg[name], reg, stack, host, fuel - 1)
  {
  }

  /**
    With parameters an invocation evaluates every clause against the caller's context, pushes
    exactly one scope binding the keys (last duplicate wins), renders the body against that
    context, and afterwards the caller's context is back to its depth and content.
   */
  lemma InvokeWithParams(name: string, params: string, reg: Registry, stack: Scopes, host: Host, fuel: nat)
    requires name in reg && fuel > 0 && params != ""
    ensures var scope := MakeScope(Clauses(params), stack, host);
      var r := RenderInvoke(name, params, reg, stack, host, fuel);
      && (scope.Err? ==> r == Err(scope.error))
      && (scope.Ok? ==>
            var body := RenderNodes(reg[name], reg, stack + [scope.value], host, fuel - 1);
            && (body.Err? ==> r == Err(body.error))
            && (body.Ok? ==> r == Ok(Rendered(body.value.out, body.value.registry, stack))))
  {
    var scope := MakeScope(Clauses(params), stack, host);
    var r := RenderInvoke(name, params, reg, stack, host, fuel);
    if scope.Ok? {
      var body := RenderNodes(reg[name], reg, stack + [scope.value], host, fuel - 1);
      if body.Ok? {
        assert body.value.stack[..|body.value.stack| - 1] == stack;
        assert r == Ok(Rendered(body.value.out, body.value.registry, stack));
      } else {
        assert r == Err(body.error);
      }
    } else {
      assert r == Err(scope.error);
    }
  }

  /** A definition rendered before an invocation of its name makes the invocation render that body. */
  lemma DefineThenInvoke(name: string, body: seq<Node>, reg: Registry, stack: Scopes, host: Host, fuel: nat)
    requires fuel > 0
    ensures var r := RenderNodes([Define(name, body), Invoke(name, "")], reg, stack, host, fuel);
      var b := RenderNodes(body, reg[name := body], stack, host, fuel - 1);
      && (b.Ok? ==> r == Ok(Rendered(b.value.out, b.value.registry, stack)))
      && (b.Err? ==> r == Err(b.error))
  {
    var nodes := [Define(name, body), Invoke(name, "")];
    var reg1 := reg[name := body];
    assert nodes[0] == Define(name, body) && nodes[1..] == [Invoke(name, "")];
    assert [Invoke(name, "")][1..] == [];
    var b := RenderNodes(body, reg1, stack, host, fuel - 1);
    assert RenderNode(Invoke(name, ""), reg1, stack, host, fuel) == b;
    if b.Ok? {
      assert RenderNodes([], b.value.registry, stack, host, fuel) == Ok(Rendered("", b.value.registry, stack));
      assert b.value.out + "" == b.value.out;
      assert "" + b.value.out == b.value.out;
    }
  }

  // ---------------------------------------------------------------------------------------------
  // `parse_json` and the whole engine

  /**
    The `parse_json` filter: the parsed value, or null when the text does not parse. It never
    fails, so it never stops a render. (`JSON.parse` itself is the `parse` parameter.)
   */
  function ParseJson(text: string, parse: string -> Option<Value>): (v: Value)
    ensures parse(text).None? ==> v == Null
    ensures parse(text).Some? ==> v == parse(text).value
  {
    match parse(text)
    case Some(v) => v
    case None => Null
  }

  /** The filter returns what was printed, for any printer the parser reads back. */
  lemma ParseJsonRoundTrip(v: Value, printer: Value -> string, parse: string -> Option<Value>)
    requires forall w :: parse(printer(w)) == Some(w)
    ensures ParseJson(printer(v), parse) == v
  {
  }

  datatype EngineError = ParseFailed(parse: ParseError) | RenderFailed(render: RenderError)

  /**
    `parseAndRender` on a fresh engine: an empty registry, the data as the outermost scope.
    `fuel` is the model's bound on macro nesting: the program sets none, and unbounded
    recursion there never finishes.
   */
  function ParseAndRender(tokens: seq<Token>, hostTags: set<string>, data: Scope, host: Host, fuel: nat): (r: Result<string, EngineError>)
    ensures ParseAll(tokens, hostTags).Err? ==> r == Err(ParseFailed(ParseAll(tokens, hostTags).error))
    ensures ParseAll(tokens, hostTags).Ok? ==>
      var done := RenderNodes(ParseAll(tokens, hostTags).value, map[], [data], host, fuel);
      && (done.Ok? ==> r == Ok(done.value.out))
      && (done.Err? ==> r == Err(RenderFailed(done.error)))
  {
    var nodes :- ParseAll(tokens, hostTags).MapError(e => ParseFailed(e));
    var done :- RenderNodes(nodes, map[], [data], host, fuel).MapError(e => RenderFailed(e));
    Ok(done.out)
  }

  /**
    The text of the error an engine failure throws: the macro tags' own errors carry the
    offending tag's text or the missing name.
   */
  function Message(e: EngineError): (m: string)
    ensures e.ParseFailed? && e.parse.NotClosed? ==> m == "tag " + e.parse.raw + " not closed"
    ensures e.ParseFailed? && e.parse.InvalidRenderSyntax? ==> m == "Invalid render syntax: " + e.parse.raw
    ensures e.RenderFailed? && e.render.Missing? ==> m == "Template \"" + e.render.name + "\" not found"
  {
    match e
    case ParseFailed(NotClosed(raw)) => "tag " + raw + " not closed"
    case ParseFailed(InvalidRenderSyntax(raw)) => "Invalid render syntax: " + raw
    case ParseFailed(UnknownTag(name)) => "tag \"" + name + "\" not found"
    case RenderFailed(Missing(name)) => "Template \"" + name + "\" not found"
    case RenderFailed(HostFailure(m)) => m
    case RenderFailed(TooDeep) => "macro nesting exceeds the model's bound"
  }
}

=== FILE: liquid_syntax.dfy ===
/**
  The parse half of the macro layer the engine adds to Liquid: the `template NAME … endtemplate`
  definition tag, the `render "NAME", k: expr, …` invocation tag, and the parse of a token stream
  into nodes. The host engine's tokenizer is not modelled: parsing starts from its tokens.
 */
module LiquidSyntax {
  import opened Results
  import opened JsText

  /** A token of the host tokenizer: literal text, an output `{{ expr }}` or a tag `{% name args %}`. */
  datatype Token =
    | TextToken(text: string)
    | OutputToken(expr: string)
    | TagToken(name: string, args: string, raw: string)

  /** A parsed template node. */
  datatype Node =
    | TextNode(text: string)
    | OutputNode(expr: string)
    | HostNode(name: string, args: string)   // a leaf tag of the host engine
    | Define(name: string, body: seq<Node>)  // `template NAME` with the nodes up to `endtemplate`
    | Invoke(target: string, params: string) // `render "NAME", params`

  datatype ParseError =
    | NotClosed(raw: string)            // `tag {% template … %} not closed`
    | InvalidRenderSyntax(raw: string)  // `Invalid render syntax: {% render … %}`
    | UnknownTag(name: string)          // a tag name the engine has not registered

  const DefinitionTag := "template"
  const EndDefinitionTag := "endtemplate"
  const InvocationTag := "render"

  predicate IsEnd(t: Token) {
    t.TagToken? && t.name == EndDefinitionTag
  }

  // ---------------------------------------------------------------------------------------------
  // Arguments of `render`: /^["']([^"']+)["'](?:,\s*(.+))?$/ on the trimmed arguments

  predicate IsQuote(c: char) {
    c == '"' || c == '\''
  }

  /** What `[^"']+` accepts: a non-empty name without quote characters. */
  predicate ValidName(name: string) {
    |name| > 0 && forall i :: 0 <= i < |name| ==> !IsQuote(name[i])
  }

  /** What `(.+)` accepts after `\s*` took all leading white space. */
  predicate ValidParams(params: string) {
    |params| > 0 && !IsSpace(params[0]) && forall i :: 0 <= i < |params| ==> !IsLineTerminator(params[i])
  }

  /**
    The grammar: `t` is a quote, `name`, a quote (either kind on either side), then either
    nothing (`params` empty) or a comma, white space and `params`.
   */
  predicate Spells(t: string, name: string, params: string) {
    && ValidName(name)
    && |t| >= |name| + 2
    && IsQuote(t[0]) && t[1..|name| + 1] == name && IsQuote(t[|name| + 1])
    && if params == "" then |t| == |name| + 2
       else
         && ValidParams(params)
         && |t| >= |name| + 3 + |params|
         && t[|name| + 2] == ','
         && AllSpace(t[|name| + 3..|t| - |params|])
         && t[|t| - |params|..] == params
  }

  /** The index of the first quote character of `s`, or `|s|`. */
  function QuoteIndex(s: string): (i: nat)
    ensures i <= |s|
    ensures forall j :: 0 <= j < i ==> !IsQuote(s[j])
    ensures i < |s| ==> IsQuote(s[i])
  {
    if |s| == 0 || IsQuote(s[0]) then 0 else 1 + QuoteIndex(s[1..])
  }

  /** The target and the raw parameter text of a `render` tag. */
  datatype Target = Target(name: string, params: string)

  /**
    The parse hook of `render`: the arguments are trimmed and must spell the grammar, which
    yields the target name and the parameter text (empty when there is none).
   */
  function ParseRenderArgs(args: string): (r: Option<Target>)
    ensures r.Some? ==> Spells(Trim(args), r.value.name, r.value.params)
  {
    MatchArgs(Trim(args))
  }

  /** The regular expression applied to trimmed text, the only text it is given. */
  function MatchArgs(t: string): (r: Option<Target>)
    requires Trimmed(t)
    ensures r.Some? ==> Spells(t, r.value.name, r.value.params)
  {
    if |t| == 0 || !IsQuote(t[0]) then None
    else
      var k := 1 + QuoteIndex(t[1..]);
      if k == 1 || k >= |t| then None
      else
        var name := t[1..k];
        NameBetweenQuotes(t, k);
        if k + 1 == |t| then Some(Target(name, ""))
        else if t[k + 1] != ',' then None
        else
          var p := TrimStart(t[k + 2..]);
          if |p| == 0 || exists i :: 0 <= i < |p| && IsLineTerminator(p[i]) then None
          else
            ParamsAfterComma(t, name, p);
            Some(Target(name, p))
  }

  /** The text between the opening quote and the next quote is a valid name. */
  lemma NameBetweenQuotes(t: string, k: int)
    requires |t| > 0 && k == 1 + QuoteIndex(t[1..]) && 1 < k < |t|
    ensures ValidName(t[1..k]) && IsQuote(t[k])
  {
    assert forall i :: 0 <= i < k - 1 ==> t[1..k][i] == t[1..][i];
  }

  /** A quoted name, a comma and white space in front of the parameters spell the grammar. */
  lemma ParamsAfterComma(t: string, name: string, p: string)
    requires ValidName(name) && |t| >= |name| + 3
    requires IsQuote(t[0]) && t[1..|name| + 1] == name && IsQuote(t[|name| + 1]) && t[|name| + 2] == ','
    requires p == TrimStart(t[|name| + 3..]) && |p| > 0
    requires forall i :: 0 <= i < |p| ==> !IsLineTerminator(p[i])
    ensures Spells(t, name, p)
  {
    var u := t[|name| + 3..];
    assert t[|t| - |p|..] == p;
    assert t[|name| + 3..|t| - |p|] == u[..|u| - |p|];
  }

  /** The first quote is found where the quote-free prefix ends. */
  lemma {:induction false} QuoteIndexAt(s: string, n: nat)
    requires n < |s| && IsQuote(s[n])
    requires forall j :: 0 <= j < n ==> !IsQuote(s[j])
    ensures QuoteIndex(s) == n
  {
    if n > 0 {
      QuoteIndexAt(s[1..], n - 1);
    }
  }

  /** In spelled text the name ends at the first quote after the opening one. */
  lemma NameEnds(t: string, name: string, params: string)
    requires Spells(t, name, params)
    ensures 1 + QuoteIndex(t[1..]) == |name| + 1
  {
    assert forall j :: 0 <= j < |name| ==> t[1..][j] == name[j];
    QuoteIndexAt(t[1..], |name|);
  }

  /** In spelled text with parameters, `trimStart` after the comma yields the parameters. */
  lemma ParamsStart(t: string, name: string, params: string)
    requires Spells(t, name, params) && params != ""
    ensures TrimStart(t[|name| + 3..]) == params
  {
    var ws := t[|name| + 3..|t| - |params|];
    assert t[|name| + 3..] == ws + params;
    TrimStartAfterSpace(ws, params);
  }

  lemma MatchArgsComplete(t: string, name: string, params: string)
    requires Trimmed(t) && Spells(t, name, params)
    ensures MatchArgs(t) == Some(Target(name, params))
  {
    NameEnds(t, name, params);
    if params != "" {
      ParamsStart(t, name, params);
    }
  }

  /** Every text the grammar accepts parses, to exactly the name and parameters it spells. */
  lemma RenderArgsComplete(args: string, name: string, params: string)
    requires Spells(Trim(args), name, params)
    ensures ParseRenderArgs(args) == Some(Target(name, params))
  {
    MatchArgsComplete(Trim(args), name, params);
  }

  // ---------------------------------------------------------------------------------------------
  // Parameter clauses: `params.split(',')`, each trimmed, then `pair.split(':')`, each trimmed

  /** One `key: expr` clause; `expr` is absent when the clause has no colon. */
  datatype Clause = Clause(key: string, expr: Option<string>)

  /**
    A clause: the key is the trimmed text before the first colon, the expression the trimmed
    text between the first and the second colon (text after a second colon is dropped).
   */
  function ParseClause(pair: string): (c: Clause)
    ensures var t := Trim(pair); var i := IndexOf(t, ':');
      && c.key == Trim(t[..i])
      && (c.expr.None? <==> i == |t|)
    ensures ':' !in c.key && (',' !in pair ==> ',' !in c.key)
  {
    var t := Trim(pair);
    var parts := Split(t, ':');
    SplitHead(t, ':');
    SplitSecond(t, ':');
    TrimKeeps(pair, ',');
    TrimKeeps(parts[0], ':');
    TrimKeeps(parts[0], ',');
    Clause(Trim(parts[0]), if |parts| >= 2 then Some(Trim(parts[1])) else None)
  }

  /** The expression of a clause with a colon is the trimmed text up to a second colon, if any. */
  lemma ClauseExpr(pair: string)
    ensures var t := Trim(pair); var i := IndexOf(t, ':');
      i < |t| ==> var rest := t[i + 1..]; ParseClause(pair).expr == Some(Trim(rest[..IndexOf(rest, ':')]))
  {
    SplitSecond(Trim(pair), ':');
  }

  /**
    The clauses of a non-empty parameter text, in order: one per comma-separated part, and no
    key holds a comma or a colon.
   */
  function Clauses(params: string): (cs: seq<Clause>)
    ensures |cs| == |Split(params, ',')| >= 1
    ensures forall i :: 0 <= i < |cs| ==> ',' !in cs[i].key && ':' !in cs[i].key
  {
    var pairs := Split(params, ',');
    seq(|pairs|, i requires 0 <= i < |pairs| => ParseClause(pairs[i]))
  }

  /** A clause as written in a template: `key: expr`. */
  function ClauseText(key: string, expr: string): string {
    key + ": " + expr
  }

  /** Keys and expressions that survive the comma and colon splitting unchanged. */
  predicate PlainPart(s: string) {
    |s| > 0 && Trimmed(s) && ':' !in s && ',' !in s
  }

  /** A clause written from plain parts has no outer white space. */
  lemma ClauseTextTrimmed(key: string, expr: string)
    requires PlainPart(key) && PlainPart(expr)
    ensures Trim(ClauseText(key, expr)) == ClauseText(key, expr)
  {
    var text := ClauseText(key, expr);
    assert text[0] == key[0] && text[|text| - 1] == expr[|expr| - 1];
    TrimOfTrimmed(text);
  }

  /** A clause written from plain parts splits at its one colon. */
  lemma ClauseTextSplit(key: string, expr: string)
    requires PlainPart(key) && PlainPart(expr)
    ensures Split(ClauseText(key, expr), ':') == [key, " " + expr]
  {
    var tail := " " + expr;
    assert ':' !in tail by {
      assert tail == [' '] + expr;
    }
    assert Join([key, tail], ':') == ClauseText(key, expr);
    SplitJoin([key, tail], ':');
  }

  /** A clause written as `key: expr` with plain parts parses back to that key and expression. */
  lemma ClauseRoundTrip(key: string, expr: string)
    requires PlainPart(key) && PlainPart(expr)
    ensures ParseClause(ClauseText(key, expr)) == Clause(key, Some(expr))
  {
    ClauseTextTrimmed(key, expr);
    ClauseTextSplit(key, expr);
    TrimOfTrimmed(key);
    TrimAfterSpace([' '], expr);
  }

  /** A clause written from plain parts has no comma, so the comma split keeps it whole. */
  lemma ClauseTextNoComma(key: string, expr: string)
    requires PlainPart(key) && PlainPart(expr)
    ensures ',' !in ClauseText(key, expr)
  {
    assert ClauseText(key, expr) == key + ": " + expr;
  }

  /** `k1: e1, k2: e2, …` parses to the clauses it was written from, in order. */
  lemma ClausesRoundTrip(keys: seq<string>, exprs: seq<string>)
    requires |keys| == |exprs| >= 1
    requires forall i :: 0 <= i < |keys| ==> PlainPart(keys[i]) && PlainPart(exprs[i])
    ensures var pairs := seq(|keys|, i requires 0 <= i < |keys| => ClauseText(keys[i], exprs[i]));
      Clauses(Join(pairs, ',')) == seq(|keys|, i requires 0 <= i < |keys| => Clause(keys[i], Some(exprs[i])))
  {
    var pairs := seq(|keys|, i requires 0 <= i < |keys| => ClauseText(keys[i], exprs[i]));
    var params := Join(pairs, ',');
    var cs := seq(|keys|, i requires 0 <= i < |keys| => Clause(keys[i], Some(exprs[i])));
    assert Split(params, ',') == pairs by {
      forall k | 0 <= k < |pairs| ensures ',' !in pairs[k] {
        ClauseTextNoComma(keys[k], exprs[k]);
      }
      SplitJoin(pairs, ',');
    }
    forall i | 0 <= i < |cs| ensures ParseClause(Split(params, ',')[i]) == cs[i] {
      ClauseRoundTrip(keys[i], exprs[i]);
    }
    ClausesOfSplit(params, cs);
  }

  /** The clauses of a text are the parses of its comma-separated parts. */
  lemma ClausesOfSplit(params: string, cs: seq<Clause>)
    requires |Split(params, ',')| == |cs|
    requires forall i :: 0 <= i < |cs| ==> ParseClause(Split(params, ',')[i]) == cs[i]
    ensures Clauses(params) == cs
  {
  }

  // ---------------------------------------------------------------------------------------------
  // Parsing a token stream

  /** The parse of a token other than a `template` tag, which consumes only itself. */
  function Leaf(t: Token, hostTags: set<string>): (r: Result<Node, ParseError>)
    requires !(t.TagToken? && t.name == DefinitionTag)
    ensures t.TextToken? ==> r == Ok(TextNode(t.text))
    ensures t.OutputToken? ==> r == Ok(OutputNode(t.expr))
    ensures t.TagToken? && t.name == InvocationTag ==>
      (r.Ok? <==> ParseRenderArgs(t.args).Some?) &&
      (r.Ok? ==> r.value == Invoke(ParseRenderArgs(t.args).value.name, ParseRenderArgs(t.args).value.params)) &&
      (r.Err? ==> r.error == InvalidRenderSyntax(t.raw))
    ensures t.TagToken? && t.name != InvocationTag ==>
      (r.Ok? <==> t.name in hostTags) && (r.Ok? ==> r.value == HostNode(t.name, t.args))
  {
    match t
    case TextToken(text) => Ok(TextNode(text))
    case OutputToken(expr) => Ok(OutputNode(expr))
    case TagToken(name, args, raw) =>
      if name == InvocationTag then
        match ParseRenderArgs(args)
        case Some(target) => Ok(Invoke(target.name, target.params))
        case None => Err(InvalidRenderSyntax(raw))
      else if name in hostTags then Ok(HostNode(name, args))
      else Err(UnknownTag(name))
  }

  /**
    Parses the node that starts `ts` and returns it with the tokens it left; a `template` tag
    takes its body from the stream up to its `endtemplate`.
   */
  function ParseNode(ts: seq<Token>, hostTags: set<string>): (r: Result<(Node, seq<Token>), ParseError>)
    requires |ts| > 0
    ensures r.Ok? ==> |r.value.1| < |ts| && r.value.1 == ts[|ts| - |r.value.1|..]
    decreases |ts|, 0
  {
    var t := ts[0];
    if t.TagToken? && t.name == DefinitionTag then
      var (body, rest) :- ParseBody(ts[1..], t.raw, hostTags);
      Ok((Define(Trim(t.args), body), rest))
    else
      var node :- Leaf(t, hostTags);
      Ok((node, ts[1..]))
  }

  /**
    The definition tag's scan: templates are parsed off the stream until an `endtemplate` tag,
    which is consumed; the stream running out first is `NotClosed` for the opening tag `raw`.
   */
  function ParseBody(ts: seq<Token>, raw: string, hostTags: set<string>): (r: Result<(seq<Node>, seq<Token>), ParseError>)
    ensures r.Ok? ==>
      var rest := r.value.1;
      |rest| < |ts| && rest == ts[|ts| - |rest|..] && IsEnd(ts[|ts| - |rest| - 1])
    ensures |ts| == 0 ==> r == Err(NotClosed(raw))
    decreases |ts|, 1
  {
    if |ts| == 0 then Err(NotClosed(raw))
    else if IsEnd(ts[0]) then Ok(([], ts[1..]))
    else
      var (node, rest) :- ParseNode(ts, hostTags);
      var (body, rest') :- ParseBody(rest, raw, hostTags);
      assert ts[|ts| - |rest|..][|rest| - |rest'|..] == ts[|ts| - |rest'|..];
      Ok(([node] + body, rest'))
  }

  /** The top-level parse of a whole document: every node comes from at least one token. */
  function ParseAll(ts: seq<Token>, hostTags: set<string>): (r: Result<seq<Node>, ParseError>)
    ensures r.Ok? ==> |r.value| <= |ts|
    ensures r.Ok? && |ts| > 0 ==> |r.value| > 0
    decreases |ts|
  {
    if |ts| == 0 then Ok([])
    else
      var (node, rest) :- ParseNode(ts, hostTags);
      var nodes :- ParseAll(rest, hostTags);
      Ok([node] + nodes)
  }

  /** No `template` and no `endtemplate` tag among the tokens. */
  predicate Flat(ts: seq<Token>) {
    forall i :: 0 <= i < |ts| ==> !IsEnd(ts[i]) && !(ts[i].TagToken? && ts[i].name == DefinitionTag)
  }

  /**
    A definition without any `endtemplate` after it never parses: it cannot run to the end of
    input silently. When the tokens after it are plain and parse, the error is `not closed` for
    the definition's own tag.
   */
  lemma {:induction false} NoSentinelFails(ts: seq<Token>, raw: string, hostTags: set<string>)
    requires forall i :: 0 <= i < |ts| ==> !IsEnd(ts[i])
    ensures ParseBody(ts, raw, hostTags).Err?
    ensures Flat(ts) && ParseAll(ts, hostTags).Ok? ==> ParseBody(ts, raw, hostTags) == Err(NotClosed(raw))
    decreases |ts|
  {
    if |ts| > 0 {
      var n := ParseNode(ts, hostTags);
      if n.Ok? {
        var rest := n.value.1;
        assert forall i :: 0 <= i < |rest| ==> rest[i] == ts[|ts| - |rest| + i];
        NoSentinelFails(rest, raw, hostTags);
      }
    }
  }

  /**
    A document without definitions parses token by token: it parses exactly when every token
    does, and then to one node per token, in order.
   */
  lemma {:induction false} FlatParse(ts: seq<Token>, hostTags: set<string>)
    requires Flat(ts)
    ensures ParseAll(ts, hostTags).Ok? <==> forall i :: 0 <= i < |ts| ==> Leaf(ts[i], hostTags).Ok?
    ensures ParseAll(ts, hostTags).Ok? ==>
      var nodes := ParseAll(ts, hostTags).value;
      |nodes| == |ts| && forall i :: 0 <= i < |ts| ==> nodes[i] == Leaf(ts[i], hostTags).value
    decreases |ts|
  {
    if |ts| > 0 {
      var rest := ts[1..];
      assert Flat(rest) by {
        assert forall i :: 0 <= i < |rest| ==> rest[i] == ts[i + 1];
      }
      FlatParse(rest, hostTags);
      assert forall i :: 0 <= i < |rest| ==> rest[i] == ts[i + 1];
      assert ParseNode(ts, hostTags) == (if Leaf(ts[0], hostTags).Ok? then Ok((Leaf(ts[0], hostTags).value, rest)) else Err(Leaf(ts[0], hostTags).error));
    }
  }

  /**
    Without nested definitions the body is the tokens before the first `endtemplate`, parsed as
    a document would be, and the tokens after it are returned to the enclosing parser.
   */
  lemma {:induction false} FlatBody(pre: seq<Token>, end: Token, post: seq<Token>, raw: string, hostTags: set<string>)
    requires Flat(pre) && IsEnd(end)
    requires ParseAll(pre, hostTags).Ok?
    ensures ParseBody(pre + [end] + post, raw, hostTags) == Ok((ParseAll(pre, hostTags).value, post))
    decreases |pre|
  {
    var ts := pre + [end] + post;
    if |pre| == 0 {
      assert ts == [end] + post;
      assert ts[1..] == post;
    } else {
      assert ts[0] == pre[0];
      assert ts[1..] == pre[1..] + [end] + post;
      FlatBody(pre[1..], end, post, raw, hostTags);
    }
  }

  /**
    A definition followed by a body without nested definitions, its `endtemplate` and more
    tokens parses to one `Define` node, named by the trimmed arguments, and the parse of the rest.
   */
  lemma DefinitionParse(args: string, raw: string, body: seq<Token>, end: Token, post: seq<Token>, hostTags: set<string>)
    requires Flat(body) && IsEnd(end)
    requires ParseAll(body, hostTags).Ok? && ParseAll(post, hostTags).Ok?
    ensures ParseAll([TagToken(DefinitionTag, args, raw)] + body + [end] + post, hostTags)
         == Ok([Define(Trim(args), ParseAll(body, hostTags).value)] + ParseAll(post, hostTags).value)
  {
    DefinitionNode(args, raw, body, end, post, hostTags);
  }

  /** The node a flat definition parses to, with the tokens after its `endtemplate` left over. */
  lemma DefinitionNode(args: string, raw: string, body: seq<Token>, end: Token, post: seq<Token>, hostTags: set<string>)
    requires Flat(body) && IsEnd(end)
    requires ParseAll(body, hostTags).Ok?
    ensures ParseNode([TagToken(DefinitionTag, args, raw)] + body + [end] + post, hostTags)
         == Ok((Define(Trim(args), ParseAll(body, hostTags).value), post))
  {
    var t := TagToken(DefinitionTag, args, raw);
    var ts := [t] + body + [end] + post;
    assert ts[0] == t && ts[1..] == body + [end] + post;
    assert ParseBody(ts[1..], raw, hostTags) == Ok((ParseAll(body, hostTags).value, post)) by {
      FlatBody(body, end, post, raw, hostTags);
    }
  }
}

=== FILE: preview_controller.dfy ===
/**
  The preview controller: a Basic-credential guard, and the preview page that renders one of
  the bundled layouts against a stop's departures fetched through the API controller.
 */
module PreviewController {
  import opened Results
  import opened JsText
  import opened JsNumbers
  import opened Json
  import opened Http
  import opened LiquidSyntax
  import opened LiquidRender
  import opened PreviewPartials
  import ApiController

  // ---------------------------------------------------------------------------------------------
  // `auth`

  /** The guard's outcome: let the request through, answer it, or throw (an undecodable credential). */
  datatype Gate = Pass | Deny(response: Response) | Throws

  const BasicScheme := "Basic"

  /** The 401 that asks the client for Basic credentials. */
  const Challenge := Response(401, Plain("Unauthorized"), true)

  /** `authHeader.slice(6)`: the header after `Basic ` (or whatever six characters it starts with). */
  function Encoded(header: string): (t: string)
    ensures |header| <= 6 ==> t == ""
    ensures |header| > 6 ==> header == header[..6] + t
  {
    if |header| <= 6 then "" else header[6..]
  }

  /** `const [username, password] = credentials.split(':')`: the first two parts, the second absent when there is no `:`. */
  function UserAndPassword(credentials: string): (r: (string, Option<string>))
    ensures r.0 == credentials[..IndexOf(credentials, ':')]
    ensures r.1.None? <==> ':' !in credentials
    ensures r.1.Some? ==>
      var rest := credentials[IndexOf(credentials, ':') + 1..]; r.1.value == rest[..IndexOf(rest, ':')]
  {
    var parts := Split(credentials, ':');
    SplitHead(credentials, ':');
    SplitSecond(credentials, ':');
    (parts[0], if |parts| >= 2 then Some(parts[1]) else None)
  }

  /**
    The Basic guard. A missing header or one not starting with `Basic` gets the challenge; the
    rest is decoded by `atob` (a parameter, `None` when it throws) and passes only when both the
    user name and the password equal the key. An unset key equals no string.
   */
  function Auth(header: Option<string>, apiKey: Option<string>, atob: string -> Option<string>): (g: Gate)
    ensures Falsy(header) || !StartsWith(header.value, BasicScheme) ==> g == Deny(Challenge)
    ensures !Falsy(header) && StartsWith(header.value, BasicScheme) && atob(Encoded(header.value)).None? ==> g == Throws
    ensures g.Deny? && g.response != Challenge ==> g.response == Error(401, "Unauthorized")
    ensures apiKey.None? ==> !g.Pass?
  {
    if Falsy(header) || !StartsWith(header.value, BasicScheme) then Deny(Challenge)
    else
      match atob(Encoded(header.value))
      case None => Throws
      case Some(credentials) =>
        var (username, password) := UserAndPassword(credentials);
        if Some(username) != apiKey || password != apiKey then Deny(Error(401, "Unauthorized"))
        else Pass
  }

  /** The credential texts that pass for `key`: `key:key`, or `key:key:` followed by anything. */
  predicate Admits(credentials: string, key: string) {
    ':' !in key && (credentials == key + ":" + key || StartsWith(credentials, key + ":" + key + ":"))
  }

  /** A text is its part before position `i`, the character there, and the rest. */
  lemma SplitAt(c: string, i: nat)
    requires i < |c|
    ensures c == c[..i] + [c[i]] + c[i + 1..]
  {
  }

  lemma ShapeFromParts(c: string, key: string, rest: string)
    requires ':' !in key && c == key + ":" + rest
    requires rest == key || StartsWith(rest, key + ":")
    ensures Admits(c, key)
  {
    if rest != key {
      var p := key + ":" + key + ":";
      assert c[..|p|] == p;
    }
  }

  /** Passing implies the credentials have one of the admitted shapes. */
  lemma AuthPassShape(credentials: string, key: string)
    requires UserAndPassword(credentials) == (key, Some(key))
    ensures Admits(credentials, key)
  {
    var c := credentials;
    var i := IndexOf(c, ':');
    var rest := c[i + 1..];
    assert ':' !in key && c == key + ":" + rest by {
      assert i < |c| && key == c[..i];
      SplitAt(c, i);
    }
    assert rest == key || StartsWith(rest, key + ":") by {
      var j := IndexOf(rest, ':');
      assert key == rest[..j];
      if j < |rest| {
        assert rest[..j + 1] == key + ":";
      }
    }
    ShapeFromParts(c, key, rest);
  }

  /** The part after the first `:` of `key:rest` is `rest`, and its first part is `key` again when it starts with `key:`. */
  lemma SecondPart(key: string, rest: string)
    requires ':' !in key && (rest == key || StartsWith(rest, key + ":"))
    ensures IndexOf(rest, ':') == |key| && rest[..|key|] == key
  {
    if rest != key {
      var tail := rest[|key| + 1..];
      assert rest == key + [':'] + tail by {
        assert rest == rest[..|key| + 1] + tail;
      }
      IndexOfPrefix(key, ':', tail);
    }
  }

  /** Each admitted shape passes: text after a second `:` is ignored. */
  lemma AuthAdmitsShape(credentials: string, key: string)
    requires Admits(credentials, key)
    ensures UserAndPassword(credentials) == (key, Some(key))
  {
    var c := credentials;
    var n := |key| + 1;
    var rest := c[n..];
    assert c == key + [':'] + rest && (rest == key || StartsWith(rest, key + ":")) by {
      if c != key + ":" + key {
        var p := key + ":" + key + ":";
        assert c == p + c[|p|..];
        assert rest == key + ":" + c[|p|..];
        assert rest[..|key| + 1] == key + ":";
      }
    }
    assert IndexOf(c, ':') == |key| && c[..|key|] == key by {
      IndexOfPrefix(key, ':', rest);
    }
    SecondPart(key, rest);
  }

  /**
    With a key configured and a decodable `Basic` header, the guard lets the request through
    exactly when the decoded credentials are `key:key` or `key:key:…`, for a key without `:`.
   */
  lemma AuthPassIff(header: string, key: string, atob: string -> Option<string>)
    requires StartsWith(header, BasicScheme) && atob(Encoded(header)).Some?
    ensures Auth(Some(header), Some(key), atob) == Pass <==> Admits(atob(Encoded(header)).value, key)
  {
    var c := atob(Encoded(header)).value;
    assert !Falsy(Some(header));
    if Auth(Some(header), Some(key), atob) == Pass {
      AuthPassShape(c, key);
    }
    if Admits(c, key) {
      AuthAdmitsShape(c, key);
    }
  }

  // ---------------------------------------------------------------------------------------------
  // `renderPreview`

  const HtmlLayoutName := "html"
  const TrmnlLayoutName := "trmnl"
  const RenderFailure := "Failed to render template: "

  /** `LAYOUTS[name]` read as a table of its own two keys. */
  function OwnLayout(views: Views, name: string): (r: Option<string>)
    ensures r.Some? <==> name == HtmlLayoutName || name == TrmnlLayoutName
    ensures name == HtmlLayoutName ==> r == Some(views.htmlLayout)
    ensures name == TrmnlLayoutName ==> r == Some(views.trmnlLayout)
  {
    if name == HtmlLayoutName then Some(views.htmlLayout)
    else if name == TrmnlLayoutName then Some(views.trmnlLayout)
    else None
  }

  /** The template engine a preview uses: the host's tokenizer, its own tags and evaluator, and a nesting bound. */
  datatype Engine = Engine(
    tokenize: string -> Result<seq<Token>, string>,
    hostTags: set<string>,
    host: Host,
    fuel: nat)

  /** The fixed `trmnl` settings a preview renders with; the UTC offset comes from the clock. */
  function TrmnlSettings(utcOffset: Value): Value {
    Obj(map[
      "plugin_settings" := Obj(map["custom_fields_values" := Obj(map["minutesToStation" := Num(3), "provider" := Str("BSAG")])]),
      "user" := Obj(map["utc_offset" := utcOffset])])
  }

  /** The render context: the departures and their timestamp taken from the API's answer, and the settings. */
  function PreviewData(payload: Value, utcOffset: Value): (data: Scope)
    ensures data.Keys == {"departures", "realtimeDataUpdatedAt", "trmnl"}
    ensures data["departures"] == Field(payload, "departures")
    ensures data["realtimeDataUpdatedAt"] == Field(payload, "realtimeDataUpdatedAt")
    ensures data["trmnl"] == TrmnlSettings(utcOffset)
  {
    map["departures" := Field(payload, "departures"),
        "realtimeDataUpdatedAt" := Field(payload, "realtimeDataUpdatedAt"),
        "trmnl" := TrmnlSettings(utcOffset)]
  }

  /**
    The `try` around the engine: the resolved layout is tokenized and rendered on a fresh engine;
    the page is the answer, and any failure a 500 carrying the engine's message.
   */
  function RenderText(text: string, data: Scope, engine: Engine): (r: Response)
    ensures engine.tokenize(text).Err? ==> r == Error(500, RenderFailure + engine.tokenize(text).error)
    ensures engine.tokenize(text).Ok? ==>
      var done := ParseAndRender(engine.tokenize(text).value, engine.hostTags, data, engine.host, engine.fuel);
      && (done.Ok? ==> r == Response(200, Page(done.value), false))
      && (done.Err? ==> r == Error(500, RenderFailure + Message(done.error)))
  {
    match engine.tokenize(text)
    case Err(m) => Error(500, RenderFailure + m)
    case Ok(tokens) =>
      match ParseAndRender(tokens, engine.hostTags, data, engine.host, engine.fuel)
      case Ok(out) => Response(200, Page(out), false)
      case Err(e) => Error(500, RenderFailure + Message(e))
  }

  /**
    The request the preview hands to the API controller: the URL `/api/v6/departures/<stopId>`
    built from the raw `stopId`, no headers, and the raw `stopId` as the path parameter. A `?` in
    the `stopId` starts the URL's query, which the API controller reads its numbers from.
   */
  function DeparturesRequest(stopId: string): (r: Request)
    ensures r.authorization.None? && r.params == map["stopId" := stopId]
    ensures '?' !in stopId ==> r.query == map[]
    ensures '?' !in stopId && '#' !in stopId ==> r.pathname == "/api/v6/departures/" + stopId
  {
    Request(None, "/api/v6/departures/" + UrlPath(stopId), UrlQuery(stopId), map["stopId" := stopId])
  }

  /** The call `getDepartures` makes for the preview's sub-request. */
  function PreviewCall(stopId: string): Call {
    var q := DeparturesRequest(stopId).query;
    DeparturesCall(stopId, IntOr(Param(q, "duration"), ApiController.DefaultDuration),
                   IntOr(Param(q, "results"), ApiController.DefaultResults))
  }

  /** The API controller answers the sub-request of any non-empty `stopId` by making exactly that call. */
  lemma PreviewCallAsked(stopId: string, client: Result<Client, Thrown>)
    requires stopId != ""
    ensures ApiController.GetDepartures(DeparturesRequest(stopId), client)
         == ApiController.Execute(Ask(PreviewCall(stopId)), client, ApiController.DeparturesFailure)
  {
    var areq := DeparturesRequest(stopId);
    assert Param(areq.params, "stopId") == Some(stopId);
    assert ApiController.DeparturesStep(areq.params, areq.query) == Ask(PreviewCall(stopId));
  }

  /** A layout entry as the code finds it: the layout's text, or a value that is not a string. */
  datatype LayoutEntry = Source(text: string) | NotAString

  /**
    The preview after the layout lookup: the `stopId` check, the departures through the API
    controller (a failed answer is returned as it is), then the render of the layout.
   */
  function AfterLayout(entry: LayoutEntry, req: Request, views: Views, resolve: string -> string,
                       client: Result<Client, Thrown>, utcOffset: Value, engine: Engine): (r: Response)
    ensures Falsy(Param(req.query, "stopId")) ==> r == Error(400, "stopId query parameter is required")
  {
    var stopId := Param(req.query, "stopId");
    if Falsy(stopId) then Error(400, "stopId query parameter is required")
    else
      var answer := ApiController.GetDepartures(DeparturesRequest(stopId.value), client);
      if !IsOk(answer) then answer
      else
        var payload := if answer.body.JsonBody? then answer.body.data else Null;
        match entry
        case NotAString => Error(500, RenderFailure + ReplaceTypeError)
        case Source(text) => RenderText(resolve(text), PreviewData(payload, utcOffset), engine)
  }

  /** The message of the `TypeError` that calling `replace` on a non-string raises. */
  const ReplaceTypeError := "template.replace is not a function"

  /**
    `renderPreview`, with the layout name looked up among the table's own keys. The checks come
    in this order: no name is a 400, a name that is not a layout a 404, no `stopId` a 400.
   */
  function RenderPreview(req: Request, views: Views, client: Result<Client, Thrown>, utcOffset: Value, engine: Engine): (r: Response)
    ensures Falsy(Param(req.params, "template")) ==> r == Error(400, "Template name is required")
    ensures !Falsy(Param(req.params, "template")) && OwnLayout(views, req.params["template"]).None? ==>
      r == Error(404, "Template \"" + req.params["template"] + "\" not found")
    ensures (!Falsy(Param(req.params, "template")) && OwnLayout(views, req.params["template"]).Some?
             && Falsy(Param(req.query, "stopId"))) ==> r == Error(400, "stopId query parameter is required")
  {
    var name := Param(req.params, "template");
    if Falsy(name) then Error(400, "Template name is required")
    else
      match OwnLayout(views, name.value)
      case None => Error(404, "Template \"" + name.value + "\" not found")
      case Some(layout) =>
        AfterLayout(Source(layout), req, views, t => ResolvePartials(views, t), client, utcOffset, engine)
  }

  /**
    A preview that passes its checks asks the timetable client for the stop with the numbers the
    sub-request's URL carries, passes a failure through as the API's 500, and otherwise renders
    the layout with its includes resolved against the departures it got.
   */
  lemma PreviewFetches(req: Request, views: Views, c: Client, utcOffset: Value, engine: Engine)
    requires !Falsy(Param(req.params, "template")) && OwnLayout(views, req.params["template"]).Some?
    requires !Falsy(Param(req.query, "stopId"))
    ensures var answer := c(PreviewCall(req.query["stopId"]));
      var r := RenderPreview(req, views, Ok(c), utcOffset, engine);
      && (answer.Err? ==> r == Error(500, "Failed to fetch departures: " + Describe(answer.error)))
      && (answer.Ok? ==>
            r == RenderText(ResolvePartials(views, OwnLayout(views, req.params["template"]).value),
                            PreviewData(answer.value, utcOffset), engine))
  {
    PreviewCallAsked(req.query["stopId"], Ok(c));
  }

  /** A plain `stopId` leaves the sub-request without a query, so the API's defaults apply: 30 minutes, 7 departures. */
  lemma PreviewFetchesDefaults(stopId: string)
    requires '?' !in stopId
    ensures PreviewCall(stopId) == DeparturesCall(stopId, 30, 7)
  {
  }

  /** The sub-request of `<id>?duration=<n>` carries exactly the query `duration=<n>`. */
  lemma StopQuery(id: string, n: nat)
    requires '?' !in id && '#' !in id
    ensures DeparturesRequest(id + "?duration=" + Decimal(n)).query == map["duration" := Decimal(n)]
  {
    var digits := Decimal(n);
    var piece := "duration=" + digits;
    assert '#' !in digits && '&' !in digits by {
      forall i | 0 <= i < |digits| ensures IsDigit(digits[i]) {}
    }
    assert id + "?duration=" + digits == id + "?" + piece by {
      assert "?duration=" == "?" + "duration=";
    }
    assert piece == "duration" + "=" + digits;
    SingleParamQuery(id, piece, "duration", digits);
  }

  /**
    A `stopId` that carries its own query sets the sub-request's numbers: `1?duration=600` asks
    for 600 minutes, past the stand-alone worker's cap of 30, with the default 7 departures.
   */
  lemma PreviewStopQuery(id: string, n: nat)
    requires '?' !in id && '#' !in id && n >= 1
    ensures PreviewCall(id + "?duration=" + Decimal(n)) == DeparturesCall(id + "?duration=" + Decimal(n), n, 7)
  {
    var q := map["duration" := Decimal(n)];
    StopQuery(id, n);
    assert IntOr(Param(q, "duration"), 30) == n by {
      ParseIntDecimal(n);
    }
    assert Param(q, "results").None?;
  }

  /** A client that cannot be created gives the API's 500 on the preview page too. */
  lemma PreviewClientFailure(req: Request, views: Views, e: Thrown, utcOffset: Value, engine: Engine)
    requires !Falsy(Param(req.params, "template")) && OwnLayout(views, req.params["template"]).Some?
    requires !Falsy(Param(req.query, "stopId"))
    ensures RenderPreview(req, views, Err(e), utcOffset, engine) == Error(500, "Failed to fetch departures: " + Describe(e))
  {
    PreviewCallAsked(req.query["stopId"], Err(e));
  }

  // ---------------------------------------------------------------------------------------------
  // The layout lookup as written: `name in LAYOUTS` also holds for inherited members

  /** `LAYOUTS[name]` as the code reads it: an own layout, an inherited member (never a string), or nothing. */
  function InheritedLayout(views: Views, name: string): (r: Option<LayoutEntry>)
    ensures OwnLayout(views, name).Some? ==> r == Some(Source(OwnLayout(views, name).value))
    ensures OwnLayout(views, name).None? ==> (r.Some? <==> name in PrototypeMembers)
    ensures OwnLayout(views, name).None? && r.Some? ==> r.value == NotAString
  {
    match OwnLayout(views, name)
    case Some(layout) => Some(Source(layout))
    case None => if name in PrototypeMembers then Some(NotAString) else None
  }

  /** `renderPreview` as written: the inherited layout lookup and the inherited partials lookup. */
  function RenderPreviewAsWritten(req: Request, views: Views, client: Result<Client, Thrown>, utcOffset: Value, engine: Engine): (r: Response)
    ensures Falsy(Param(req.params, "template")) ==> r == Error(400, "Template name is required")
  {
    var name := Param(req.params, "template");
    if Falsy(name) then Error(400, "Template name is required")
    else
      match InheritedLayout(views, name.value)
      case None => Error(404, "Template \"" + name.value + "\" not found")
      case Some(entry) =>
        AfterLayout(entry, req, views, t => ResolvePartialsAsWritten(views, t), client, utcOffset, engine)
  }

  /**
    The discrepancy: as written, the template name `toString` passes the layout check, so a
    request for it fetches departures and then fails with a 500 where it should be a 404.
   */
  lemma InheritedLayoutAccepted(req: Request, views: Views, c: Client, utcOffset: Value, engine: Engine)
    requires Param(req.params, "template") == Some("toString") && !Falsy(Param(req.query, "stopId"))
    requires c(PreviewCall(req.query["stopId"])).Ok?
    ensures RenderPreviewAsWritten(req, views, Ok(c), utcOffset, engine) == Error(500, RenderFailure + ReplaceTypeError)
    ensures RenderPreview(req, views, Ok(c), utcOffset, engine) == Error(404, "Template \"toString\" not found")
  {
    InheritedEntryFails(req, views, c, utcOffset, engine);
    ToStringNotFound(req, views, Ok(c), utcOffset, engine);
  }

  /** With the own-key lookup, `toString` is not a layout: a 404 before anything is fetched. */
  lemma ToStringNotFound(req: Request, views: Views, client: Result<Client, Thrown>, utcOffset: Value, engine: Engine)
    requires Param(req.params, "template") == Some("toString")
    ensures RenderPreview(req, views, client, utcOffset, engine) == Error(404, "Template \"toString\" not found")
  {
    assert OwnLayout(views, "toString").None?;
    assert "Template \"" + "toString" + "\" not found" == "Template \"toString\" not found";
  }

  /** As written, the inherited name reaches the render with a fetched answer and fails there on the `replace` call. */
  lemma InheritedEntryFails(req: Request, views: Views, c: Client, utcOffset: Value, engine: Engine)
    requires Param(req.params, "template") == Some("toString") && !Falsy(Param(req.query, "stopId"))
    requires c(PreviewCall(req.query["stopId"])).Ok?
    ensures RenderPreviewAsWritten(req, views, Ok(c), utcOffset, engine) == Error(500, RenderFailure + ReplaceTypeError)
  {
    assert "toString" in PrototypeMembers;
    assert InheritedLayout(views, "toString") == Some(NotAString);
    PreviewCallAsked(req.query["stopId"], Ok(c));
  }
}

=== FILE: preview_partials.dfy ===
/**
  Include resolution of the preview: every `{% include "NAME" %}` directive of a layout is
  replaced, in one left-to-right pass of a global regular-expression replace, by the partial
  the table holds under NAME; a directive the table does not resolve stays as written.
 */
module PreviewPartials {
  import opened Results
  import opened JsText
  import opened LiquidSyntax

  // ---------------------------------------------------------------------------------------------
  // The directive: /\{%\s*include\s+["']([^"']+)["']\s*%}/

  /**
    One match of the include pattern, in its parts: the white space after `{%`, the white
    space after `include` (at least one character), the two quotes (of either kind, not
    necessarily alike), the captured name and the white space before `%}`.
   */
  datatype Directive = Directive(lead: string, gap: string, open: char, name: string, close: char, trail: string)

  predicate WellFormed(d: Directive) {
    && AllSpace(d.lead)
    && |d.gap| > 0 && AllSpace(d.gap)
    && IsQuote(d.open) && ValidName(d.name) && IsQuote(d.close)
    && AllSpace(d.trail)
  }

  /** `"NAME"` and the end of the directive, from the name on. */
  function NameText(name: string, close: char, trail: string): string {
    name + ([close] + (trail + "%}"))
  }

  /** The directive from the white space after `include` on. */
  function GapText(d: Directive): string {
    d.gap + ([d.open] + NameText(d.name, d.close, d.trail))
  }

  /** The text a directive is written as. */
  function Text(d: Directive): string {
    "{%" + (d.lead + ("include" + GapText(d)))
  }

  /** `a + t` starts with `a + b` when `t` starts with `b`. */
  lemma PrefixBoth(a: string, t: string, b: string)
    requires StartsWith(t, b)
    ensures StartsWith(a + t, a + b)
  {
    assert (a + t)[..|a + b|] == a + t[..|b|];
  }

  /** A text starts with its own first `n` characters followed by whatever its remainder starts with. */
  lemma PrefixDrop(s: string, n: nat, b: string)
    requires n <= |s| && StartsWith(s[n..], b)
    ensures StartsWith(s, s[..n] + b)
  {
    assert s == s[..n] + s[n..];
    PrefixBoth(s[..n], s[n..], b);
  }

  /** The text `t` without its leading white space, and that white space. */
  function Lead(t: string): (r: (string, string))
    ensures AllSpace(r.0) && t == r.0 + r.1 && r.1 == TrimStart(t)
  {
    var rest := TrimStart(t);
    assert t == t[..|t| - |rest|] + rest;
    (t[..|t| - |rest|], rest)
  }

  /** Leading white space in front of a non-space is what `Lead` splits off. */
  lemma LeadOf(ws: string, p: string)
    requires AllSpace(ws) && |p| > 0 && !IsSpace(p[0])
    ensures Lead(ws + p) == (ws, p)
  {
    TrimStartAfterSpace(ws, p);
    var t := ws + p;
    assert t[..|t| - |p|] == ws;
  }

  /** The end of the pattern, `["']\s*%}`, at the start of `t`: the closing quote and the white space. */
  function MatchClose(t: string): (r: Option<(char, string)>)
    ensures r.Some? ==> IsQuote(r.value.0) && AllSpace(r.value.1) && StartsWith(t, [r.value.0] + (r.value.1 + "%}"))
  {
    if |t| == 0 || !IsQuote(t[0]) then None
    else
      var (trail, u) := Lead(t[1..]);
      if !StartsWith(u, "%}") then None
      else
        PrefixBoth(trail, u, "%}");
        PrefixDrop(t, 1, trail + "%}");
        assert t[..1] == [t[0]];
        Some((t[0], trail))
  }

  lemma MatchCloseComplete(close: char, trail: string, rest: string)
    requires IsQuote(close) && AllSpace(trail)
    ensures MatchClose([close] + (trail + "%}") + rest) == Some((close, trail))
  {
    var t := [close] + (trail + "%}") + rest;
    assert t[1..] == trail + ("%}" + rest);
    LeadOf(trail, "%}" + rest);
  }

  /** `([^"']+)["']\s*%}` at the start of `t`: the name, the closing quote and the white space. */
  function MatchName(t: string): (r: Option<(string, char, string)>)
    ensures r.Some? ==> ValidName(r.value.0) && IsQuote(r.value.1) && AllSpace(r.value.2)
    ensures r.Some? ==> StartsWith(t, NameText(r.value.0, r.value.1, r.value.2))
  {
    var k := QuoteIndex(t);
    if k == 0 then None
    else
      match MatchClose(t[k..])
      case None => None
      case Some((close, trail)) =>
        NameParts(t, k, close, trail);
        Some((t[..k], close, trail))
  }

  /** The text before the first quote, followed by the end of the pattern, starts `t`. */
  lemma NameParts(t: string, k: nat, close: char, trail: string)
    requires 0 < k == QuoteIndex(t) && StartsWith(t[k..], [close] + (trail + "%}"))
    ensures ValidName(t[..k]) && StartsWith(t, NameText(t[..k], close, trail))
  {
    var name := t[..k];
    assert forall i :: 0 <= i < k ==> name[i] == t[i];
    assert t == name + t[k..];
    PrefixBoth(name, t[k..], [close] + (trail + "%}"));
  }

  lemma MatchNameComplete(name: string, close: char, trail: string, rest: string)
    requires ValidName(name) && IsQuote(close) && AllSpace(trail)
    ensures MatchName(NameText(name, close, trail) + rest) == Some((name, close, trail))
  {
    var t := NameText(name, close, trail) + rest;
    assert t == name + ([close] + (trail + "%}") + rest);
    QuoteIndexAt(t, |name|);
    assert t[|name|..] == [close] + (trail + "%}") + rest;
    assert t[..|name|] == name;
    MatchCloseComplete(close, trail, rest);
  }

  /** `\s+["']([^"']+)["']\s*%}` at the start of `t`. */
  function MatchGap(t: string): (r: Option<(string, char, string, char, string)>)
    ensures r.Some? ==> |r.value.0| > 0 && AllSpace(r.value.0) && IsQuote(r.value.1)
    ensures r.Some? ==> ValidName(r.value.2) && IsQuote(r.value.3) && AllSpace(r.value.4)
    ensures r.Some? ==> StartsWith(t, r.value.0 + ([r.value.1] + NameText(r.value.2, r.value.3, r.value.4)))
  {
    var (gap, u) := Lead(t);
    if |gap| == 0 || |u| == 0 || !IsQuote(u[0]) then None
    else
      match MatchName(u[1..])
      case None => None
      case Some((name, close, trail)) =>
        GapParts(t, gap, u, NameText(name, close, trail));
        Some((gap, u[0], name, close, trail))
  }

  /** White space, a quote and text the rest of `u` starts with, together start `t`. */
  lemma GapParts(t: string, gap: string, u: string, named: string)
    requires t == gap + u && |u| > 0 && StartsWith(u[1..], named)
    ensures StartsWith(t, gap + ([u[0]] + named))
  {
    PrefixDrop(u, 1, named);
    assert u[..1] == [u[0]];
    PrefixBoth(gap, u, [u[0]] + named);
  }

  lemma MatchGapComplete(d: Directive, rest: string)
    requires WellFormed(d)
    ensures MatchGap(GapText(d) + rest) == Some((d.gap, d.open, d.name, d.close, d.trail))
  {
    var u := [d.open] + (NameText(d.name, d.close, d.trail) + rest);
    assert GapText(d) + rest == d.gap + u;
    LeadOf(d.gap, u);
    assert u[1..] == NameText(d.name, d.close, d.trail) + rest;
    MatchNameComplete(d.name, d.close, d.trail, rest);
  }

  /** `\s*include` and the rest of the pattern at the start of `t`, the text after `{%`. */
  function MatchKeyword(t: string): (r: Option<Directive>)
    ensures r.Some? ==> WellFormed(r.value) && StartsWith(t, r.value.lead + ("include" + GapText(r.value)))
  {
    var (lead, u) := Lead(t);
    if !StartsWith(u, "include") then None
    else
      match MatchGap(u[7..])
      case None => None
      case Some((gap, open, name, close, trail)) =>
        var d := Directive(lead, gap, open, name, close, trail);
        assert WellFormed(d);
        assert StartsWith(t, lead + ("include" + GapText(d))) by {
          PrefixDrop(u, 7, GapText(d));
          PrefixBoth(lead, u, "include" + GapText(d));
        }
        Some(d)
  }

  lemma OpenPrefix(s: string, b: string)
    requires |s| >= 2 && s[0] == '{' && s[1] == '%' && StartsWith(s[2..], b)
    ensures StartsWith(s, "{%" + b)
  {
    PrefixDrop(s, 2, b);
    assert s[..2] == "{%";
  }

  /**
    The regular expression tried at the start of `s`: the directive `s` begins with, if any.
    The pattern leaves no choice (each white-space run ends at a non-space, the name at a
    quote), so there is at most one.
   */
  function MatchInclude(s: string): (r: Option<Directive>)
    ensures r.Some? ==> WellFormed(r.value) && StartsWith(s, Text(r.value))
    ensures |s| > 0 && s[0] != '{' ==> r.None?
  {
    if |s| < 2 || s[0] != '{' || s[1] != '%' then None
    else
      match MatchKeyword(s[2..])
      case None => None
      case Some(d) =>
        OpenPrefix(s, d.lead + ("include" + GapText(d)));
        Some(d)
  }

  /** Every well-formed directive is found, in its parts, at the start of any text it begins. */
  lemma MatchIncludeComplete(d: Directive, rest: string)
    requires WellFormed(d)
    ensures MatchInclude(Text(d) + rest) == Some(d)
  {
    var s := Text(d) + rest;
    var x2 := GapText(d) + rest;
    var x1 := "include" + x2;
    assert s[0] == '{' && s[1] == '%' && s[2..] == d.lead + x1 by {
      assert s == "{%" + (d.lead + x1);
    }
    assert MatchKeyword(s[2..]) == Some(d) by {
      LeadOf(d.lead, x1);
      assert StartsWith(x1, "include") && x1[7..] == x2;
      MatchGapComplete(d, rest);
    }
  }

  // ---------------------------------------------------------------------------------------------
  // The replace

  /** `PARTIALS[name] || match`: a partial with text replaces the match; no partial, or an empty one, keeps it. */
  function Replacement(found: Option<string>, matched: string): (r: string)
    ensures found.Some? && found.value != "" ==> r == found.value
    ensures found.None? || found.value == "" ==> r == matched
  {
    if found.Some? && found.value != "" then found.value else matched
  }

  /** One match of a pattern at the start of a text: how many characters it spans and its captured name. */
  datatype Match = Match(length: nat, name: string)

  /** A matcher for the replace: whatever it reports spans at least one character of the text. */
  ghost predicate Advances(find: string -> Option<Match>) {
    forall s :: find(s).Some? ==> 0 < find(s).value.length <= |s|
  }

  /** A lookup whose every answer puts the matched text back: nothing found, or an empty partial. */
  ghost predicate KeepsMatches(lookup: string -> Option<string>) {
    forall name :: lookup(name).None? || lookup(name) == Some("")
  }

  /**
    `s.replace(/…/g, replacer)`: scanning left to right, a match `find` reports at the current
    position is replaced and the scan resumes after it; otherwise one character is copied.
    Replacement text is never scanned again.
   */
  function ReplaceAll(s: string, find: string -> Option<Match>, lookup: string -> Option<string>): (r: string)
    requires Advances(find)
    ensures KeepsMatches(lookup) ==> r == s
    decreases |s|
  {
    if |s| == 0 then ""
    else
      match find(s)
      case Some(m) => Replacement(lookup(m.name), s[..m.length]) + ReplaceAll(s[m.length..], find, lookup)
      case None => [s[0]] + ReplaceAll(s[1..], find, lookup)
  }

  /** A matcher that never reports a match where the text does not start with `{`. */
  ghost predicate OpensWithBrace(find: string -> Option<Match>) {
    forall s :: |s| > 0 && s[0] != '{' ==> find(s).None?
  }

  /** Where the matcher reports nothing, the replace copies one character and moves on. */
  lemma ReplaceCopies(s: string, find: string -> Option<Match>, lookup: string -> Option<string>)
    requires Advances(find) && |s| > 0 && find(s).None?
    ensures ReplaceAll(s, find, lookup) == [s[0]] + ReplaceAll(s[1..], find, lookup)
  {
  }

  /** Text without `{` is copied through by the replace, whatever follows it. */
  lemma {:induction false} ReplacePlainPrefix(p: string, rest: string, find: string -> Option<Match>, lookup: string -> Option<string>)
    requires Advances(find) && OpensWithBrace(find) && '{' !in p
    ensures ReplaceAll(p + rest, find, lookup) == p + ReplaceAll(rest, find, lookup)
    decreases |p|
  {
    if |p| == 0 {
      assert p + rest == rest;
    } else {
      var s, t := p + rest, ReplaceAll(rest, find, lookup);
      assert ReplaceAll(s[1..], find, lookup) == p[1..] + t by {
        assert s[1..] == p[1..] + rest;
        ReplacePlainPrefix(p[1..], rest, find, lookup);
      }
      assert ReplaceAll(s, find, lookup) == [p[0]] + ReplaceAll(s[1..], find, lookup) by {
        assert s[0] == p[0] != '{';
        ReplaceCopies(s, find, lookup);
      }
      assert [p[0]] + (p[1..] + t) == p + t by {
        assert p == [p[0]] + p[1..];
      }
    }
  }

  /** Where the matcher finds nothing at any position, the replace is the identity. */
  lemma {:induction false} ReplaceNothing(s: string, find: string -> Option<Match>, lookup: string -> Option<string>)
    requires Advances(find) && forall i :: 0 <= i < |s| ==> find(s[i..]).None?
    ensures ReplaceAll(s, find, lookup) == s
    decreases |s|
  {
    if |s| > 0 {
      assert find(s[0..]).None? && s[0..] == s;
      forall i | 0 <= i < |s| - 1 ensures find(s[1..][i..]).None? {
        assert s[1..][i..] == s[i + 1..];
      }
      ReplaceNothing(s[1..], find, lookup);
    }
  }

  /** The include pattern as a matcher: the length of the directive found and its name. */
  function FindInclude(s: string): (r: Option<Match>)
    ensures r.Some? <==> MatchInclude(s).Some?
    ensures r.Some? ==> r.value.name == MatchInclude(s).value.name && r.value.length == |Text(MatchInclude(s).value)|
  {
    match MatchInclude(s)
    case None => None
    case Some(d) => Some(Match(|Text(d)|, d.name))
  }

  /** The include pattern only matches at a `{`, and every match spans some of the text. */
  lemma FindIncludeMatcher()
    ensures Advances(FindInclude) && OpensWithBrace(FindInclude)
  {
  }

  /** `template.replace(LIQUID_INCLUDE_REGEX, …)`: the replace with the include pattern. */
  function Resolve(s: string, lookup: string -> Option<string>): (r: string)
    ensures KeepsMatches(lookup) ==> r == s
  {
    FindIncludeMatcher();
    ReplaceAll(s, FindInclude, lookup)
  }

  /** A directive followed by more text: its replacement, then the resolution of the rest. */
  lemma ResolveDirective(d: Directive, rest: string, lookup: string -> Option<string>)
    requires WellFormed(d)
    ensures Resolve(Text(d) + rest, lookup) == Replacement(lookup(d.name), Text(d)) + Resolve(rest, lookup)
  {
    MatchIncludeComplete(d, rest);
    var s := Text(d) + rest;
    assert s[..|Text(d)|] == Text(d) && s[|Text(d)|..] == rest;
  }

  /**
    Single pass: the partial's text is put in as it is, even when it holds a directive
    itself; only the text after the replaced directive is scanned further.
   */
  lemma ResolveNotRescanned(d: Directive, inner: Directive, rest: string, lookup: string -> Option<string>)
    requires WellFormed(d) && WellFormed(inner) && lookup(d.name) == Some(Text(inner))
    ensures Resolve(Text(d) + rest, lookup) == Text(inner) + Resolve(rest, lookup)
  {
    ResolveDirective(d, rest, lookup);
  }

  /** A directive the table does not resolve (absent, or an empty partial) is left as written. */
  lemma ResolveUnknownVerbatim(d: Directive, rest: string, lookup: string -> Option<string>)
    requires WellFormed(d) && (lookup(d.name).None? || lookup(d.name) == Some(""))
    ensures Resolve(Text(d) + rest, lookup) == Text(d) + Resolve(rest, lookup)
  {
    ResolveDirective(d, rest, lookup);
  }

  /** Text without `{` holds no directive and is copied through, whatever follows it. */
  lemma ResolvePlainPrefix(p: string, rest: string, lookup: string -> Option<string>)
    requires '{' !in p
    ensures Resolve(p + rest, lookup) == p + Resolve(rest, lookup)
  {
    FindIncludeMatcher();
    ReplacePlainPrefix(p, rest, FindInclude, lookup);
  }

  /** With no directive anywhere in it, a text resolves to itself: resolution is the identity there. */
  lemma ResolveIdentity(s: string, lookup: string -> Option<string>)
    requires forall i :: 0 <= i < |s| ==> MatchInclude(s[i..]).None?
    ensures Resolve(s, lookup) == s
  {
    FindIncludeMatcher();
    ReplaceNothing(s, FindInclude, lookup);
  }

  /** Without any `{` a text has no directive, so it resolves to itself. */
  lemma ResolveWithoutBrace(s: string, lookup: string -> Option<string>)
    requires '{' !in s
    ensures Resolve(s, lookup) == s
  {
    ResolvePlainPrefix(s, "", lookup);
    assert s + "" == s;
  }

  // ---------------------------------------------------------------------------------------------
  // The partials table

  /** The view sources bundled with the worker; their text is an input of this model. */
  datatype Views = Views(htmlLayout: string, trmnlLayout: string, fullPartial: string, sharedPartial: string)

  const FullPartialName := "partials/full"
  const SharedPartialName := "partials/shared"

  /** `PARTIALS[name]` read as a table of its own two keys. */
  function OwnPartial(views: Views, name: string): (r: Option<string>)
    ensures r.Some? <==> name == FullPartialName || name == SharedPartialName
    ensures name == FullPartialName ==> r == Some(views.fullPartial)
    ensures name == SharedPartialName ==> r == Some(views.sharedPartial)
  {
    if name == FullPartialName then Some(views.fullPartial)
    else if name == SharedPartialName then Some(views.sharedPartial)
    else None
  }

  /** Include resolution against the partials table, each name looked up among the table's own keys. */
  function ResolvePartials(views: Views, template: string): (r: string)
    ensures '{' !in template ==> r == template
    ensures views.fullPartial == "" && views.sharedPartial == "" ==> r == template
  {
    var lookup := name => OwnPartial(views, name);
    if '{' !in template then
      ResolveWithoutBrace(template, lookup);
      Resolve(template, lookup)
    else Resolve(template, lookup)
  }

  /** A directive naming one of the two partials is replaced by that partial (unless it is empty). */
  lemma ResolveKnownPartial(views: Views, d: Directive, rest: string)
    requires WellFormed(d) && (d.name == FullPartialName || d.name == SharedPartialName)
    requires OwnPartial(views, d.name).value != ""
    ensures ResolvePartials(views, Text(d) + rest) == OwnPartial(views, d.name).value + ResolvePartials(views, rest)
  {
    ResolveDirective(d, rest, name => OwnPartial(views, name));
  }

  /** A directive naming anything else, an inherited member name included, is left as written. */
  lemma ResolveOtherVerbatim(views: Views, d: Directive, rest: string)
    requires WellFormed(d) && d.name != FullPartialName && d.name != SharedPartialName
    ensures ResolvePartials(views, Text(d) + rest) == Text(d) + ResolvePartials(views, rest)
  {
    ResolveUnknownVerbatim(d, rest, name => OwnPartial(views, name));
  }

  // ---------------------------------------------------------------------------------------------
  // The lookup as written: an object literal also answers for the members it inherits

  /** The members every plain object inherits from `Object.prototype` (section 20.1.3 of ECMA-262 and Annex B). */
  const PrototypeMembers: set<string> := {
    "constructor", "hasOwnProperty", "isPrototypeOf", "propertyIsEnumerable", "toLocaleString",
    "toString", "valueOf", "__proto__", "__defineGetter__", "__defineSetter__", "__lookupGetter__",
    "__lookupSetter__"}

  /**
    What the replacer's result turns into for an inherited member: the prototype object prints
    as `[object Object]`, the `constructor` is `Object`, and every other member is a built-in
    function printed with its own name.
   */
  function InheritedText(name: string): string {
    if name == "__proto__" then "[object Object]"
    else if name == "constructor" then "function Object() { [native code] }"
    else "function " + name + "() { [native code] }"
  }

  /** `PARTIALS[name]` as the code reads it: own keys first, then inherited members. */
  function InheritedPartial(views: Views, name: string): (r: Option<string>)
    ensures OwnPartial(views, name).Some? ==> r == OwnPartial(views, name)
    ensures OwnPartial(views, name).None? ==> (r.Some? <==> name in PrototypeMembers)
  {
    match OwnPartial(views, name)
    case Some(p) => Some(p)
    case None => if name in PrototypeMembers then Some(InheritedText(name)) else None
  }

  /** The resolution as written, with the inherited lookup. */
  function ResolvePartialsAsWritten(views: Views, template: string): (r: string)
    ensures '{' !in template ==> r == template
  {
    var lookup := name => InheritedPartial(views, name);
    if '{' !in template then
      ResolveWithoutBrace(template, lookup);
      Resolve(template, lookup)
    else Resolve(template, lookup)
  }

  /** `{% include "toString" %}`. */
  const ToStringDirective := Directive("", " ", '"', "toString", '"', " ")

  lemma ToStringWellFormed()
    ensures WellFormed(ToStringDirective)
  {
    var d := ToStringDirective;
    assert AllSpace(d.gap) && AllSpace(d.trail);
    assert forall i :: 0 <= i < |d.name| ==> !IsQuote(d.name[i]);
  }

  /** A text that is one directive resolves to that directive's replacement. */
  lemma ResolveSingle(d: Directive, lookup: string -> Option<string>)
    requires WellFormed(d)
    ensures Resolve(Text(d), lookup) == Replacement(lookup(d.name), Text(d))
  {
    ResolveDirective(d, "", lookup);
    assert Text(d) + "" == Text(d);
    var r := Replacement(lookup(d.name), Text(d));
    assert r + "" == r;
  }

  /**
    The discrepancy: as written, an include of `toString` is replaced by the text of a
    built-in function, where a name that is not a partial should stay as written.
   */
  lemma InheritedIncludeReplaced(views: Views)
    ensures ResolvePartialsAsWritten(views, Text(ToStringDirective)) == "function toString() { [native code] }"
  {
    ToStringWellFormed();
    ResolveSingle(ToStringDirective, name => InheritedPartial(views, name));
    ToStringText();
  }

  lemma ToStringText()
    ensures InheritedText("toString") == "function toString() { [native code] }"
  {
  }

  /** With the own-key lookup the same include stays as written. */
  lemma OwnLookupKeepsInclude(views: Views)
    ensures ResolvePartials(views, Text(ToStringDirective)) == Text(ToStringDirective)
  {
    ToStringWellFormed();
    ResolveSingle(ToStringDirective, name => OwnPartial(views, name));
  }
}

=== FILE: results.dfy ===
/** Failure-compatible wrappers shared by every module of the model. */
module Results {

  /** A value that may be absent: JavaScript's `null`/`undefined` for a lookup that found nothing. */
  datatype Option<+T> = None | Some(value: T) {

    /** The wrapped value, or `default` when absent. */
    function GetOr(default: T): T {
      match this
      case Some(v) => v
      case None => default
    }
  }

  /** The outcome of a step that may throw: `Ok` carries the value, `Err` the error. */
  datatype Result<+T, +E> = Ok(value: T) | Err(error: E) {

    predicate IsFailure() {
      Err?
    }

    function PropagateFailure<U>(): Result<U, E>
      requires Err?
    {
      Err(error)
    }

    function Extract(): T
      requires Ok?
    {
      value
    }

    /** Replaces the error while keeping a success untouched. */
    function MapError<E2>(f: E -> E2): Result<T, E2> {
      match this
      case Ok(v) => Ok(v)
      case Err(e) => Err(f(e))
    }
  }
}

=== FILE: worker.dfy ===
/**
  The stand-alone worker entry point: a bearer-token check in front of everything, then routing
  on the path to the locations search or the departures board of one stop, with the departures
  window and count defaulted from the query and capped.
 */
module Worker {
  import opened Results
  import opened JsText
  import opened JsNumbers
  import opened Json
  import opened Http

  const LocationsPath := "/locations"
  const DeparturesPrefix := "/departures/"
  const DefaultDuration := 30
  const DefaultResults := 7
  const LocationResults := 5
  const LocationsFailure := "Failed to fetch locations: "
  const DeparturesFailure := "Failed to fetch departures: "

  /** `errorResponse(message, status)`: the JSON object `{ error: message }` with that status. */
  function ErrorResponse(status: int, message: string): (r: Response)
    ensures r.status == status && r.body.JsonBody? && !r.basicChallenge
    ensures Field(r.body.data, "error") == Str(message)
  {
    Response(status, JsonBody(Obj(map["error" := Str(message)])), false)
  }

  /** The `Authorization` header the worker accepts: `Bearer ${env.API_KEY}`, with an unset key printed as `undefined`. */
  function BearerText(apiKey: Option<string>): (t: string)
    ensures apiKey.Some? ==> t == "Bearer " + apiKey.value
  {
    "Bearer " + ShowOptional(apiKey)
  }

  predicate AllDigits(s: string) {
    forall i :: 0 <= i < |s| ==> IsDigit(s[i])
  }

  /** The path matches `^/departures/(\d+)$` and `id` is the captured group. */
  predicate IsDeparturesPath(p: string, id: string) {
    p == DeparturesPrefix + id && |id| > 0 && AllDigits(id)
  }

  /** `pathname.match(DEPARTURES_STOP_ID_REGEX)?.[1]`: the digits after the prefix when they run to the end. */
  function StopIdOf(p: string): (r: Option<string>)
    ensures r.Some? ==> IsDeparturesPath(p, r.value)
  {
    if StartsWith(p, DeparturesPrefix) then
      var rest := p[|DeparturesPrefix|..];
      if |rest| > 0 && DigitRun(rest, 10) == rest then
        assert p == DeparturesPrefix + rest;
        Some(rest)
      else None
    else None
  }

  /** Every path the regular expression matches is recognised, with its digits as the stop id. */
  lemma StopIdOfComplete(p: string, id: string)
    requires IsDeparturesPath(p, id)
    ensures StopIdOf(p) == Some(id)
  {
    assert p[|DeparturesPrefix|..] == id;
    assert Digits(id, 10);
    DigitRunAll(id, 10);
  }

  datatype Route = LocationsRoute | DeparturesRoute(stopId: string) | NotFound

  /** The `switch (true)` of `fetch`: the exact locations path first, then the departures pattern. */
  function RouteOf(p: string): (r: Route)
    ensures r == LocationsRoute <==> p == LocationsPath
    ensures r.DeparturesRoute? ==> IsDeparturesPath(p, r.stopId)
  {
    if p == LocationsPath then LocationsRoute
    else
      match StopIdOf(p)
      case Some(id) => DeparturesRoute(id)
      case None => NotFound
  }

  /**
    Routing in terms of the paths alone: `/locations` and nothing else goes to the locations
    search, exactly the paths of the departures pattern go to the departures board with their
    digits, and everything else is not found.
   */
  lemma RouteClassification(p: string, id: string)
    ensures RouteOf(p) == LocationsRoute <==> p == LocationsPath
    ensures RouteOf(p) == DeparturesRoute(id) <==> IsDeparturesPath(p, id)
    ensures RouteOf(p) == NotFound <==> p != LocationsPath && StopIdOf(p).None?
  {
    if IsDeparturesPath(p, id) {
      StopIdOfComplete(p, id);
      assert p[1] == 'd';
    }
  }

  /** `handleLocations` before the client: a missing or empty `query` is a 400, otherwise ask for 5 matches. */
  function LocationsStep(query: map<string, string>): (s: Step)
    ensures s.Respond? <==> Falsy(Param(query, "query"))
    ensures s.Respond? ==> s.response == ErrorResponse(400, "Missing query parameter")
    ensures s.Ask? ==> s.call == LocationsCall(query["query"], LocationResults)
  {
    var q := Param(query, "query");
    if Falsy(q) then Respond(ErrorResponse(400, "Missing query parameter"))
    else Ask(LocationsCall(q.value, LocationResults))
  }

  /** `Math.min(cap, parseInt(p || '') || cap)`: the parameter's number, defaulted to `cap`, never above it. */
  function Capped(p: Option<string>, cap: int): (n: int)
    ensures n <= cap
    ensures p.None? || ParseInt(p.value).None? || ParseInt(p.value) == Some(0) ==> n == cap
    ensures p.Some? && ParseInt(p.value).Some? && ParseInt(p.value).value != 0 ==>
      n == if ParseInt(p.value).value < cap then ParseInt(p.value).value else cap
  {
    var m := IntOr(p, cap);
    if m < cap then m else cap
  }

  /** A decimal number up to the cap is taken as it is; a larger one is cut to the cap. */
  lemma CappedDecimal(n: nat, cap: int)
    requires n >= 1
    ensures n <= cap ==> Capped(Some(Decimal(n)), cap) == n
    ensures n > cap ==> Capped(Some(Decimal(n)), cap) == cap
  {
    ParseIntDecimal(n);
  }

  /** There is no lower bound: a negative number passes the cap unchanged. */
  lemma CappedNegative(n: nat, cap: int)
    requires n >= 1 && cap >= 0
    ensures Capped(Some("-" + Decimal(n)), cap) == -(n as int)
  {
    ParseIntNegative(n);
  }

  /**
    `handleDepartures` before the client: a path without a stop id is a 400, otherwise ask for
    the stop's departures with `duration` capped at 30 and `results` at 7.
   */
  function DeparturesStep(pathname: string, query: map<string, string>): (s: Step)
    ensures StopIdOf(pathname).None? ==> s == Respond(ErrorResponse(400, "Missing or invalid stopId"))
    ensures StopIdOf(pathname).Some? ==> s.Ask? && s.call.DeparturesCall? && s.call.stopId == StopIdOf(pathname).value
    ensures s.Ask? ==> s.call.duration <= DefaultDuration && s.call.results <= DefaultResults
  {
    var stopId := StopIdOf(pathname);
    if Falsy(stopId) then Respond(ErrorResponse(400, "Missing or invalid stopId"))
    else
      var duration := Capped(Param(query, "duration"), DefaultDuration);
      var results := Capped(Param(query, "results"), DefaultResults);
      Ask(DeparturesCall(stopId.value, duration, results))
  }

  /**
    A handler's call to the client: the data as a 200 JSON response, or, when creating the
    client or the call fails, an `Error` whose message names the handler's subject.
   */
  function Execute(step: Step, client: Result<Client, Thrown>, prefix: string): (r: Result<Response, Thrown>)
    ensures step.Respond? ==> r == Ok(step.response)
    ensures step.Ask? && client.Err? ==> r == Err(ErrorObject(prefix + Describe(client.error)))
    ensures step.Ask? && client.Ok? ==>
      var answer := client.value(step.call);
      (answer.Ok? ==> r == Ok(Response(200, JsonBody(answer.value), false)))
      && (answer.Err? ==> r == Err(ErrorObject(prefix + Describe(answer.error))))
  {
    match step
    case Respond(response) => Ok(response)
    case Ask(call) =>
      match client
      case Err(e) => Err(ErrorObject(prefix + Describe(e)))
      case Ok(c) =>
        match c(call)
        case Ok(data) => Ok(Response(200, JsonBody(data), false))
        case Err(e) => Err(ErrorObject(prefix + Describe(e)))
  }

  /**
    The worker's `fetch`: the bearer check, then routing; whatever a handler throws becomes a
    500 JSON error carrying the thrown message.
   */
  function Fetch(req: Request, apiKey: Option<string>, client: Result<Client, Thrown>): (r: Response)
    ensures !HeaderIs(req.authorization, BearerText(apiKey)) ==> r == ErrorResponse(401, "Unauthorized")
    ensures r.status in {200, 400, 401, 404, 500}
  {
    if !HeaderIs(req.authorization, BearerText(apiKey)) then ErrorResponse(401, "Unauthorized")
    else
      var outcome :=
        match RouteOf(req.pathname)
        case LocationsRoute => Execute(LocationsStep(req.query), client, LocationsFailure)
        case DeparturesRoute(_) => Execute(DeparturesStep(req.pathname, req.query), client, DeparturesFailure)
        case NotFound => Ok(ErrorResponse(404, "Not found"));
      match outcome
      case Ok(response) => response
      case Err(e) => ErrorResponse(500, Describe(e))
  }

  /** A 401 comes from the bearer check and from nothing else, whatever the path and the client. */
  lemma UnauthorizedExactly(req: Request, apiKey: Option<string>, client: Result<Client, Thrown>)
    ensures Fetch(req, apiKey, client).status == 401 <==> req.authorization != Some(BearerText(apiKey))
  {
    if HeaderIs(req.authorization, BearerText(apiKey)) {
      var s := match RouteOf(req.pathname)
        case LocationsRoute => LocationsStep(req.query)
        case DeparturesRoute(_) => DeparturesStep(req.pathname, req.query)
        case NotFound => Respond(ErrorResponse(404, "Not found"));
      assert s.Respond? ==> s.response.status != 401;
    }
  }

  /**
    With no key configured the template literal prints `undefined`, so the header
    `Bearer undefined` passes the check.
   */
  lemma UnsetKeyAcceptsUndefined(req: Request, client: Result<Client, Thrown>)
    requires req.authorization == Some("Bearer undefined")
    ensures Fetch(req, None, client).status != 401
  {
    assert BearerText(None) == "Bearer undefined";
    UnauthorizedExactly(req, None, client);
  }

  /** Paths outside the two routes are a 404 for an authorised request. */
  lemma UnknownPathNotFound(req: Request, apiKey: Option<string>, client: Result<Client, Thrown>)
    requires HeaderIs(req.authorization, BearerText(apiKey))
    requires req.pathname != LocationsPath && forall id :: !IsDeparturesPath(req.pathname, id)
    ensures Fetch(req, apiKey, client) == ErrorResponse(404, "Not found")
  {
    var p := StopIdOf(req.pathname);
    if p.Some? {
      assert false;
    }
  }

  /**
    The locations search: a missing or empty `query` is a 400; otherwise the client is asked for
    5 matches of the query and its answer is the body, or its failure a 500 naming locations.
   */
  lemma LocationsOutcome(req: Request, apiKey: Option<string>, c: Client)
    requires HeaderIs(req.authorization, BearerText(apiKey)) && req.pathname == LocationsPath
    ensures Falsy(Param(req.query, "query")) ==>
      Fetch(req, apiKey, Ok(c)) == ErrorResponse(400, "Missing query parameter")
    ensures !Falsy(Param(req.query, "query")) ==>
      var answer := c(LocationsCall(req.query["query"], 5));
      && (answer.Ok? ==> Fetch(req, apiKey, Ok(c)) == Response(200, JsonBody(answer.value), false))
      && (answer.Err? ==>
            Fetch(req, apiKey, Ok(c)) == ErrorResponse(500, LocationsFailure + Describe(answer.error)))
  {
    RouteClassification(req.pathname, "");
  }

  /**
    The departures board: an authorised request on a departures path never gets the 400 of a
    missing stop id, since the pattern guarantees one; the client is asked for that stop with
    capped parameters.
   */
  lemma DeparturesOutcome(req: Request, apiKey: Option<string>, id: string, c: Client)
    requires HeaderIs(req.authorization, BearerText(apiKey)) && IsDeparturesPath(req.pathname, id)
    ensures var call := DeparturesCall(id, Capped(Param(req.query, "duration"), 30), Capped(Param(req.query, "results"), 7));
      var answer := c(call);
      && (answer.Ok? ==> Fetch(req, apiKey, Ok(c)) == Response(200, JsonBody(answer.value), false))
      && (answer.Err? ==>
            Fetch(req, apiKey, Ok(c)) == ErrorResponse(500, DeparturesFailure + Describe(answer.error)))
    ensures Fetch(req, apiKey, Ok(c)).status != 400
  {
    RouteClassification(req.pathname, id);
    StopIdOfComplete(req.pathname, id);
  }

  /** A client that cannot be created turns every request that reaches it into a 500 naming the handler. */
  lemma ClientFailure(req: Request, apiKey: Option<string>, e: Thrown)
    requires HeaderIs(req.authorization, BearerText(apiKey))
    ensures req.pathname == LocationsPath && !Falsy(Param(req.query, "query")) ==>
      Fetch(req, apiKey, Err(e)) == ErrorResponse(500, LocationsFailure + Describe(e))
    ensures StopIdOf(req.pathname).Some? ==>
      Fetch(req, apiKey, Err(e)) == ErrorResponse(500, DeparturesFailure + Describe(e))
  {
    if StopIdOf(req.pathname).Some? {
      RouteClassification(req.pathname, StopIdOf(req.pathname).value);
    }
  }
}
